=== FILE: README.md ===
# Lattice diagrams of transmission lines

This project models the three `run_diagram` engines of the repository. Each
one turns transmission-line parameters into step-waveform traces (lattice or
Bewley diagrams), and the model proves what those traces look like.

- `double_lattice.py`: the voltage engine for two cascaded line segments.
  - Its prelude derives the reflection coefficients rho_a, rho_b, rho_c and rho_d, the transmission coefficients t_b and t_c, and the initial and steady voltages.
  - It then runs a discrete-event loop over a time-ordered queue of beams. A beam is a time plus four slots (A near end, B and C the two sides of the junction, D far end).
  - A beam at or below the threshold `max(tol, tol * v_steady)` is dropped.
  - Any other beam appends a hold point and a jump point to the near, central or far trace, and enqueues its child beams: one at an end, two at the junction. A kept beam with all four slots zero (only possible with a negative threshold) changes nothing and enqueues nothing.
  - Once the queue is empty, every trace gets one flattening point.
- `double_lattice_current.py`: the same engine with a different initial value and threshold.
  - It launches the current `v_source / (r_termination + r_source)`.
  - It has no steady value, so its threshold is scaled by that initial current.
- `lattice.py`: the single-segment diagram.
  - The bounce loop alternates between the far end (odd bounces) and the near end (even bounces), appending to three parallel lists.
  - It stops at an explicit iteration count, once both ends are within tolerance of the steady voltage, or at `max_iterations`.

Modelling choices:

- Python floats are modelled as `real`.
- An infinite termination is the `Open` case of `Termination`; a finite one is `Finite(r)`.
- The coefficient preludes are pure functions in `Coefficients`.
- The two-segment loop is the imperative method `BeamEngine.Drain`, whose body is one pass, `BeamEngine.Step`. `BeamEngine.Run` adds the flattening points, and both two-segment engines call it.
  - Its traces are sequence values that are appended to, one handler method per interface.
  - Its queue is a multiset from which an earliest beam is taken. The function `Waiting` replays the queue from the beams popped so far, and every pop is proved to take an earliest beam of it.
  - It is proved against the specification functions `Apply` (what a beam does to the traces), `Children` (what it enqueues) and `Replay` (the traces after a sequence of beams).
- The single-segment loop is the imperative method `Lattice.Bounce`.
  - It is proved against `TimePoints`, `NearLevels`, `FarLevels` and the wave recurrence `After`.
  - Bewley's closed form is then proved about `After`.

Files:

- `coefficients.dfy`: the shared coefficient prelude.
- `beams.dfy`: beams and the queue.
- `engine.dfy`: the shared two-segment loop.
- `double_lattice.dfy` and `double_lattice_current.dfy`: the two two-segment engines.
- `lattice.dfy`: the single-segment engine.
- `sequences.dfy`: list facts.

## Model

| member | source | states |
|---|---|---|
| Coefficients.Reflection | double_lattice.py:17-19 | rho = (r - z)/(r + z), stated as rho * (r + z) == r - z |
| Coefficients.ReflectionAntisymmetric | double_lattice.py:18-19 | the coefficient seen from the other side of the same discontinuity is the negated one (rho_c = -rho_b) |
| Coefficients.ReflectionBounds | double_lattice.py:17-21 | for r >= 0 and z > 0 the coefficient lies in [-1, 1], and it is 0 exactly when r == z |
| Coefficients.FarReflection | double_lattice.py:20-21 | rho_d is 1 for an open termination and -1 for a short; otherwise rho_d (rt + z) == rt - z, and it is 0 for a matched termination |
| Coefficients.InitialVoltage | double_lattice.py:11 | v_initial (z + rs) == z v, the voltage divider |
| Coefficients.SteadyVoltage | double_lattice.py:14 | v_steady is v_source when open and 0 when shorted; otherwise v_steady (rs + rt) == rt v |
| Coefficients.JunctionCoefficients | double_lattice.py:17-34 | rho_c == -rho_b, t_b == 1 + rho_b, t_c == 1 - rho_b and t_b + t_c == 2; equal impedances give rho_b == rho_c == 0 and t_b == t_c == 1; rho_a and rho_b satisfy their defining equations; rho_d is FarReflection |
| Coefficients.JunctionBounds | double_lattice.py:17-25 | for passive terminations every rho lies in [-1, 1] and every t in [0, 2] |
| Beams.Into | double_lattice.py:79 | a beam sent into one port has at most one nonzero slot (none when the magnitude is 0) and the given time |
| Beams.IntoHandled | double_lattice.py:71-126 | a beam sent into port p with a nonzero magnitude is handled at p with that magnitude; with magnitude 0 no handler matches |
| Beams.Handler | double_lattice.py:71-126 | the handler that runs is that of the first nonzero slot in the order A, B, C, D; none when all four are zero |
| Beams.Peak | double_lattice.py:67 | max(abs(v_abcd)) is one of the four absolute slot values and no smaller than any of them; for a single-slot beam it is the absolute magnitude |
| Beams.EarliestExists | double_lattice.py:63-64 | every nonempty queue holds a beam no later than any other |
| Beams.TakeEarliest | double_lattice.py:64 | `get` removes one beam of the queue that is no later than every other and leaves the rest |
| BeamEngine.Apply | double_lattice.py:71-76 | a processed beam makes exactly one trace (A near, B/C central, D far) take a hold point and a jump by magnitude * (1 + rho) at the beam's time, and leaves the other two unchanged; a beam with no nonzero slot changes nothing |
| BeamEngine.ApplyKeepsOrder | double_lattice.py:73-76 | processing a beam only appends to the traces, and keeps a trace's times nondecreasing when the beam is no earlier than its last time |
| BeamEngine.Jump | double_lattice.py:73-76 | the hold-and-jump update keeps times and levels of equal length and ends at the previous level plus the jump |
| BeamEngine.Hold | double_lattice.py:128-134 | the flattening point appends one time and repeats the last level |
| BeamEngine.StepsKeepOrder | double_lattice.py:73-76 | a hold-then-jump pair no earlier than the last time keeps the trace well formed and its times nondecreasing |
| BeamEngine.ChildrenTable | double_lattice.py:78-125 | A spawns (t + T0, into B, x rho_a); B spawns (t + T0, into A, x rho_b) and (t + T1, into D, x t_b); C spawns (t + T1, into D, x rho_c) and (t + T0, into A, x t_c); D spawns (t + T1, into C, x rho_d) |
| BeamEngine.ChildrenShape | double_lattice.py:78-125 | every child has a single slot and arrives one transit delay after its parent; a beam has children exactly when a handler matches it, one at the ends and two at the junction |
| BeamEngine.ChildrenLater | double_lattice.py:78-123 | with positive delays every child arrives strictly after its parent |
| BeamEngine.MatchedFarEndAbsorbs | double_lattice.py:116-126 | with rho_d == 0 the reflection of a D beam matches no handler and is dropped at once |
| BeamEngine.EnqueueKeeps | double_lattice.py:78-125 | enqueuing the children keeps every queued beam single-slot and, with nonnegative delays, no earlier than the parent |
| BeamEngine.Threshold | double_lattice.py:67 | the drop threshold max(tol, tol * scale) is the larger of tol and tol * scale; the voltage engine scales by v_steady, the current engine by i_initial (double_lattice_current.py line 57) |
| BeamEngine.Children | double_lattice.py:78-125 | the beams a kept beam enqueues: A puts (t + T0, into B, x rho_a) (line 79); B puts (t + T0, into A, x rho_b) and (t + T1, into D, x t_b) (lines 90, 95); C puts (t + T1, into D, x rho_c) and (t + T0, into A, x t_c) (lines 107, 112); D puts (t + T1, into C, x rho_d) (line 124); a beam with no nonzero slot puts nothing |
| BeamEngine.Transit | double_lattice.py:78-123 | the clock advance of a handler: T0 for A and C, T1 for B and D, none for a beam that matches no handler |
| BeamEngine.Resume | double_lattice.py:64-123 | the clock after a pop: the beam's time when it is dropped, its time plus the handler's transit otherwise |
| BeamEngine.Waiting | double_lattice.py:60-125 | the queue after a sequence of pops: the seed, less each popped beam, plus the children of each popped beam above the threshold |
| BeamEngine.Spawned | double_lattice.py:78-125 | every beam the processed beams put on the queue: the children of each processed beam, as a multiset |
| BeamEngine.Replay | double_lattice.py:71-126 | the traces after handling a sequence of beams in order, each beam's hold-and-jump applied to the traces the earlier ones left, starting from the seed traces; they stay well formed |
| BeamEngine.Finish | double_lattice.py:128-134 | every trace gains one flattening point at the given time that repeats its last level |
| BeamEngine.Kept | double_lattice.py:67-69 | the processed beams are exactly the popped beams whose peak exceeds the threshold |
| BeamEngine.Seeds | double_lattice.py:56-57 | the seed traces are well formed |
| BeamEngine.ArriveNear | double_lattice.py:71-81 | the A handler jumps the near trace by x (1 + rho_a), enqueues the A children and moves the clock to t + T0 |
| BeamEngine.ArriveJunctionFromNear | double_lattice.py:83-97 | the B handler jumps the central trace by x (1 + rho_b), enqueues both B children and moves the clock to t + T1 |
| BeamEngine.ArriveJunctionFromFar | double_lattice.py:99-114 | the C handler jumps the central trace by x (1 + rho_c), enqueues both C children and moves the clock to t + T0 |
| BeamEngine.ArriveFar | double_lattice.py:116-126 | the D handler jumps the far trace by x (1 + rho_d), enqueues the D child and moves the clock to t + T1 |
| BeamEngine.Handle | double_lattice.py:71-126 | the first nonzero slot selects the handler: the traces become Apply of the beam, the queue gains exactly Children of the beam, and the clock moves by the transit delay |
| BeamEngine.TransitLandsOnChild | double_lattice.py:78-125 | after a handler the clock reads the arrival time of a child it enqueued |
| BeamEngine.PopKeepsOrder | double_lattice.py:63-64 | popping an earliest beam keeps the popped times in order and the queue no earlier than the new clock |
| BeamEngine.DropKeepsProgress | double_lattice.py:67-69 | a dropped beam changes no trace and enqueues nothing |
| BeamEngine.HandleKeepsProgress | double_lattice.py:63-126 | popping and handling a beam keeps the loop invariant: the traces replay the processed beams, every enqueued beam is popped or still queued, and (for nonnegative delays) times stay ordered |
| BeamEngine.PopInTurn | double_lattice.py:63-78 | popping an earliest beam of the queue pops it in its turn, and the queue that follows is the old one less that beam plus, when it is above the threshold, its children |
| BeamEngine.PoppedAt | double_lattice.py:63-64 | the n-th popped beam was in the queue, and no later than any beam in it, after the first n pops |
| BeamEngine.Step | double_lattice.py:64-126 | one pass of the loop pops a beam x of the queue that is no later than any other and appends it to the pops; the new queue is the old one less x plus, when x is above the threshold, its children; x joins the processed beams exactly when it is above the threshold; the loop invariant is kept |
| BeamEngine.Drain | double_lattice.py:50-126 | the loop stops after at most `fuel` pops, after exactly `fuel` unless the queue emptied; every beam came out in its turn, the queue is what the pops leave waiting, and the loop invariant holds |
| BeamEngine.Simulated | double_lattice.py:50-135 | what a run within `fuel` pops satisfies: the seed comes out first; each pop takes an earliest beam of what the earlier pops left waiting; the run drained exactly when nothing is waiting; without draining it used all `fuel` pops and the traces replay the processed beams; once drained every enqueued beam was popped and the replay is flattened at the last clock plus max(T0, T1); with nonnegative delays popped times and trace times are nondecreasing |
| BeamEngine.Run | double_lattice.py:50-135 | within `fuel` pops, the seed comes out first; each popped beam was an earliest beam of the queue the earlier pops left (the seed, less the beams popped, plus the children of those above the threshold); the run drained exactly when that queue is empty; the traces replay the beams above the threshold in popping order, and popped times and trace times are nondecreasing; once drained, every beam ever enqueued was popped and each trace ends with one flattening point at the last clock plus max(T0, T1) |
| BeamEngine.ReplayLevels | double_lattice.py:71-126 | each trace ends at its seed level plus the jumps of the beams handled at its interfaces |
| BeamEngine.ReplayLengths | double_lattice.py:73-76 | each trace gains exactly two points per beam handled at its interfaces |
| BeamEngine.SimulatedStartsWithSeeds | double_lattice.py:56-57 | every trace of a run (its replay, flattened once drained) starts with its seed points: near [-T0, 0, 0] / [0, 0, v_initial], central and far [-T0, 0] / [0, 0] |
| BeamEngine.LastPopEnqueuedNothing | double_lattice.py:63-126 | when nothing is left waiting, the last pop was dropped or matched no handler, so the clock stayed at its time |
| BeamEngine.DrainedFlattensAfterLastPop | double_lattice.py:128-134 | in a drained run the flattening point of every trace lies at the time of the last pop plus max(T0, T1), after the replay of the processed beams |
| BeamEngine.NothingPoppedOnceEmpty | double_lattice.py:63-64 | once nothing is waiting after the first n pops, no further beam is popped |
| BeamEngine.QuietSeedPoppedAlone | double_lattice.py:61-69 | a seed at or below the threshold is the only beam ever popped and leaves nothing waiting |
| BeamEngine.QuietSeedDrains | double_lattice.py:61-135 | a run allowed at least one pop whose seed is at or below the threshold pops only the seed, processes nothing, drains, and returns the seed traces flattened at T0 + max(T0, T1) |
| BeamEngine.DrainedTotals | double_lattice.py:128-135 | after draining, times and levels have equal length (4 + 2 per A beam near, 3 + 2 per B/C beam central, 3 + 2 per D beam far) and each final level is the seed level plus the handled jumps |
| DoubleLattice.RunDiagram | double_lattice.py:7-135 | the voltage engine is the beam loop launched with v_initial, the junction coefficients and the threshold scaled by v_steady: its beams come out of the queue in their turn, it drains exactly when the queue empties, and its traces are those of BeamEngine.Run |
| DoubleLattice.UniformLineJunctionTransparent | double_lattice.py:18-25 | with Z0 == Z1 a beam at B spawns a zero beam into A and the whole magnitude into D one T1 later; a beam at C spawns a zero beam into D and the whole magnitude into A one T0 later; so the reflection is dropped and the transmission carries the whole magnitude on |
| DoubleLatticeCurrent.InitialCurrent | double_lattice_current.py:11 | i_initial (rt + rs) == v for a finite termination; 0 for an open one |
| DoubleLatticeCurrent.RunDiagram | double_lattice_current.py:7-126 | the current engine is the same beam loop launched with i_initial and the threshold scaled by i_initial: its beams come out of the queue in their turn, it drains exactly when the queue empties, and its traces are those of BeamEngine.Run |
| DoubleLatticeCurrent.OpenLineLaunchesNothing | double_lattice_current.py:11-124 | with an open termination and any tolerance, a run allowed at least one pop pops only the zero seed beam, drops it, processes nothing and drains; every trace's levels stay at 0 (near [0, 0, 0, 0], central and far [0, 0, 0]) |
| Sequences.AppendPairKeepsOrder | lattice.py:54-55 | appending a repeated time no earlier than the last keeps a list nondecreasing |
| Lattice.TimePoints | lattice.py:44 | after n bounces the time list has 3 + 2n points and ends at n T |
| Lattice.NearLevels | lattice.py:42 | after n bounces the near list has 3 + 2n points and ends at the near voltage of the wave recurrence |
| Lattice.FarLevels | lattice.py:43 | after n bounces the far list has 3 + 2n points and ends at the far voltage of the wave recurrence |
| Lattice.FarBounce | lattice.py:58-67 | an odd bounce keeps the near end, sets backward = rho_far forward and raises the far end by forward + backward, which is the recurrence at the next bounce |
| Lattice.After | lattice.py:47-79 | the forward and backward waves and the two end voltages after n bounces: an odd bounce reflects the forward wave at the far end and raises it, an even bounce reflects the backward wave at the near end and raises it |
| Lattice.Settled | lattice.py:91-95 | an end is settled when it is within tolerance * v_steady of v_steady, plus tolerance * v_source of slack when v_steady is 0 |
| Lattice.Stops | lattice.py:83-102 | the loop returns after bounce n exactly at the iteration count when one is given, otherwise once both ends are settled or n reaches max_iterations |
| Lattice.NearBounce | lattice.py:70-79 | an even bounce keeps the far end, sets forward = rho_near backward and raises the near end by backward + forward |
| Lattice.Finished | lattice.py:83-102 | returning after the first bounce at which the run stops appends the closing point one delay later and repeats both last levels |
| Lattice.KeepsGoing | lattice.py:83-97 | a bounce at which the run does not stop extends the run of such bounces |
| Lattice.Diagram | lattice.py:41-102 | a returned run: it stops at the first bounce where the stop test holds, no later than the iteration count or max_iterations, and the lists are those of the recurrence after that bounce plus one point a delay later that repeats both last levels |
| Lattice.Bounce | lattice.py:41-102 | the loop returns after the first bounce at which Stops holds, no later than the iteration count or max_iterations, with the lists of the recurrence plus one closing point |
| Lattice.RunDiagram | lattice.py:8-102 | the single-segment engine is the bounce loop with the prelude's rho_near, rho_far, v_initial and v_steady |
| Lattice.DiagramShape | lattice.py:83-102 | all three lists have length 3 + 2 bounces + 1, the last time is (bounces + 1) T, the last levels repeat the previous ones; an iteration count gives exactly that many bounces, otherwise at most max_iterations, with both ends settled when it stops earlier |
| Lattice.TimePointsNondecreasing | lattice.py:52-55 | for T >= 0 the time list is nondecreasing after any number of bounces |
| Lattice.NextBounceLater | lattice.py:53 | bounce n + 1 lands no earlier than the last time after bounce n |
| Lattice.DiagramTimesNondecreasing | lattice.py:52-55 | the returned time list, closing point included, is nondecreasing |
| Lattice.SteadyBalance | lattice.py:9-26 | for open, short and finite terminations, v_steady (1 - rho_near rho_far) == v_initial (1 + rho_far) |
| Lattice.BalanceOpen | lattice.py:20-22 | the balance for the open line (rho_far = 1, v_steady = v_source) |
| Lattice.BalanceFinite | lattice.py:9-17 | the balance from the defining equations of the four quotients of a finite termination |
| Lattice.ClosedForm | lattice.py:50-79 | with r = rho_near rho_far, bounce 2j leaves the forward wave v_initial r^j, the near end at v_steady + (v_initial - v_steady) r^j and the far end at v_steady - v_steady r^j; bounce 2j+1 sends back rho_far v_initial r^j and brings the far end to v_steady - v_steady r^(j+1) |
| Lattice.FarRise | lattice.py:63-67 | the far end's rise at an odd bounce closes a factor r of its gap to v_steady |
| Lattice.NearRise | lattice.py:75-79 | the near end's rise at an even bounce closes a factor r of its gap, and the forward wave scales by r |
| Lattice.MatchedVoltages | lattice.py:9-17 | into its own impedance rho_far is 0 and v_initial equals v_steady, which is nonnegative for a nonnegative source |
| Lattice.SettledAtSteady | lattice.py:91-95 | for v_steady >= 0, v_source >= 0 and tolerance >= 0, a level at v_steady is settled |
| Lattice.NegativeSteadyNeverSettles | lattice.py:91-95 | the bound tolerance * v_steady has no absolute value, so for v_steady < 0 and tolerance > 0 no level is settled, not even v_steady itself; such a run stops only at the iteration count or max_iterations |
| Lattice.StopsAtFirstBounce | lattice.py:83-102 | a run that stops at bounce 1 returns exactly six points per list |
| Lattice.MatchedStops | lattice.py:90-102 | with no far-end reflection, v_initial already steady, v_initial >= 0, v_source >= 0 and tolerance >= 0, a run without an iteration count returns after bounce 1 with both ends at v_initial |
| Lattice.MatchedLoadStopsAtFirstBounce | lattice.py:9-102 | with no iteration count, a positive line impedance, a nonnegative source resistance, a nonnegative source voltage and a nonnegative tolerance, a line terminated in its own impedance stops after the first bounce, both ends at v_initial == v_steady |

## Left out

- The console output (the `print`/`round` blocks) is not modelled; only the returned values are.
- Floating point: rounding, NaN and infinity are not modelled.
  - The `inf / inf` and `v / inf` intermediates that the special cases overwrite are not reproduced.
  - `Coefficients.PreludeDefined` and `Lattice.Defined` require only that the divisors of the prelude are nonzero; Python raises on a zero divisor.
- BeamEngine.Run: the queue loop has no event cap and need not drain (with |rho_a| = |rho_d| = 1, Z0 == Z1 and a seed beam above the threshold it never does, since no beam loses magnitude; a seed at or below the threshold drains after one pop, see BeamEngine.QuietSeedDrains). The model pops at most `fuel` beams, exactly `fuel` unless the queue empties first, and reports whether it emptied; termination is not claimed.
- BeamEngine.Run: the ordering properties are stated for nonnegative delays T0 and T1.
- Beams.TakeEarliest: the queue returns some earliest beam. Python's tie-break at equal times compares the slot tuples, and the numpy seed array, which is not modelled.
- The `queue.PriorityQueue` locking is not modelled.
- The seed numpy array is modelled as a four-slot beam.
- `ESHD_formulas.helper` is not part of this model; `is_even(n)` is taken to be `n % 2 == 0`.
- DoubleLatticeCurrent.InitialCurrent: for an open termination the source divides by infinity and keeps the resulting 0; the model keeps that value as written.
- Lattice.RunDiagram: `iterations` is a `nat` with 0 standing for the falsy `None`; negative or fractional iteration counts are not modelled.
- Lattice.RunDiagram and Lattice.Bounce: without an iteration count they require `max_iterations >= 1`. Otherwise the source loops until both ends settle, which need not happen.
- Lattice.RunDiagram and Lattice.Bounce also return the number of bounces, which the source does not return; it pins down the returned lists.
- DoubleLattice.RunDiagram, DoubleLatticeCurrent.RunDiagram and BeamEngine.Run also return the beams they popped and those they processed, which the source does not return; the traces are stated in terms of them.

=== FILE: beams.dfy ===
/** Beams of the two-segment lattice diagram and the time-ordered queue that
    holds them. A beam is the source's `(time, (a, b, c, d))` tuple: the
    arrival time, and the magnitude in the slot of the interface it travels
    towards (A near end, B junction from line 0, C junction from line 1,
    D far end). */
module Beams {
  import opened Coefficients

  datatype Beam = Beam(time: real, a: real, b: real, c: real, d: real)

  /** The four interfaces, in the order the source tests the slots. */
  datatype Port = A | B | C | D

  /** At most one slot carries a nonzero magnitude. */
  predicate SingleSlot(x: Beam)
  {
    && (x.a != 0.0 ==> x.b == 0.0 && x.c == 0.0 && x.d == 0.0)
    && (x.b != 0.0 ==> x.c == 0.0 && x.d == 0.0)
    && (x.c != 0.0 ==> x.d == 0.0)
  }

  /** The beam arriving at port `p` at time `t` with magnitude `m`. */
  function Into(p: Port, t: real, m: real): (x: Beam)
    ensures SingleSlot(x) && x.time == t
  {
    Beam(t, if p == A then m else 0.0, if p == B then m else 0.0,
         if p == C then m else 0.0, if p == D then m else 0.0)
  }

  /** A beam sent towards port `p` with a nonzero magnitude is handled at `p`
      with that magnitude; with magnitude zero it matches no handler. */
  lemma IntoHandled(p: Port, t: real, m: real)
    ensures m != 0.0 ==> Handler(Into(p, t, m)) == Some(p) && Magnitude(Into(p, t, m)) == m
    ensures m == 0.0 ==> Handler(Into(p, t, m)) == None
  {
  }

  datatype Option<T> = None | Some(value: T)

  /** The interface whose handler runs: the first nonzero slot, as the
      source's chain of `!= 0` tests picks it; none when all four are zero. */
  function Handler(x: Beam): Option<Port>
  {
    if x.a != 0.0 then Some(A)
    else if x.b != 0.0 then Some(B)
    else if x.c != 0.0 then Some(C)
    else if x.d != 0.0 then Some(D)
    else None
  }

  /** The magnitude the selected handler works with. */
  function Magnitude(x: Beam): real
  {
    if x.a != 0.0 then x.a
    else if x.b != 0.0 then x.b
    else if x.c != 0.0 then x.c
    else x.d
  }

  /** `max(np.abs(v_abcd))`: the largest absolute slot value. For a
      single-slot beam it is the absolute value of its magnitude. */
  function Peak(x: Beam): (p: real)
    ensures p >= Abs(x.a) && p >= Abs(x.b) && p >= Abs(x.c) && p >= Abs(x.d)
    ensures p == Abs(x.a) || p == Abs(x.b) || p == Abs(x.c) || p == Abs(x.d)
    ensures SingleSlot(x) ==> p == Abs(Magnitude(x))
  {
    Max(Max(Max(Abs(x.a), Abs(x.b)), Abs(x.c)), Abs(x.d))
  }

  /** The beam is no later than anything in the queue. */
  predicate Earliest(x: Beam, queue: multiset<Beam>)
  {
    forall y | y in queue :: x.time <= y.time
  }

  /** Every nonempty queue has an earliest beam. */
  lemma {:induction false} EarliestExists(queue: multiset<Beam>)
    requires queue != multiset{}
    ensures exists x :: x in queue && Earliest(x, queue)
    decreases |queue|
  {
    var y :| y in queue;
    var rest := queue - multiset{y};
    if rest == multiset{} {
      assert queue == multiset{y};
    } else {
      EarliestExists(rest);
      var x :| x in rest && Earliest(x, rest);
      if x.time <= y.time {
        assert Earliest(x, queue);
      } else {
        assert Earliest(y, queue);
      }
    }
  }

  /** `PriorityQueue.get`: removes an earliest beam. Which of several beams
      with the same time comes out is left open. */
  method TakeEarliest(queue: multiset<Beam>) returns (x: Beam, rest: multiset<Beam>)
    requires queue != multiset{}
    ensures x in queue && Earliest(x, queue)
    ensures rest == queue - multiset{x} && rest + multiset{x} == queue
  {
    EarliestExists(queue);
    x :| x in queue && Earliest(x, queue);
    rest := queue - multiset{x};
  }
}

=== FILE: coefficients.dfy ===
/** Reflection and transmission coefficients of the lattice diagrams, and the
    initial and steady-state values a step source launches onto a line.
    Python floats are modelled as reals; the source's `float('inf')`
    termination is the `Open` case of `Termination`. */
module Coefficients {

  /** The magnitude a reflection or a transmission with coefficient
      `coefficient` passes on from a wave of magnitude `m`. */
  function Scale(m: real, coefficient: real): real
  {
    m * coefficient
  }

  /** A termination resistance: a finite value, or an open circuit. */
  datatype Termination = Open | Finite(r: real)

  function Abs(x: real): (a: real)
    ensures a >= 0.0 && (a == x || a == -x)
  {
    if x < 0.0 then -x else x
  }

  function Max(x: real, y: real): (m: real)
    ensures m >= x && m >= y && (m == x || m == y)
  {
    if x >= y then x else y
  }

  /** Reflection coefficient of a wave travelling in a line of impedance `z`
      that meets a resistance (or a line of impedance) `r`. */
  function Reflection(r: real, z: real): (rho: real)
    requires r + z != 0.0
    ensures rho * (r + z) == r - z
  {
    (r - z) / (r + z)
  }

  /** Seen from the other side of the same discontinuity, the reflection
      changes sign: this is why the junction coefficients satisfy rho_c = -rho_b. */
  lemma ReflectionAntisymmetric(r: real, z: real)
    requires r + z != 0.0
    ensures Reflection(z, r) == -Reflection(r, z)
  {
    var p, q := Reflection(r, z), Reflection(z, r);
    assert (p + q) * (r + z) == 0.0;
  }

  /** A passive discontinuity reflects at most the whole wave, and reflects
      nothing exactly when it is matched. */
  lemma ReflectionBounds(r: real, z: real)
    requires r >= 0.0 && z > 0.0
    ensures -1.0 <= Reflection(r, z) <= 1.0
    ensures Reflection(r, z) == 0.0 <==> r == z
  {
    var rho := Reflection(r, z);
    if rho > 1.0 {
      PositiveProduct(rho - 1.0, r + z);
    }
    if rho < -1.0 {
      PositiveProduct(-1.0 - rho, r + z);
    }
  }

  lemma PositiveProduct(x: real, y: real)
    requires x > 0.0 && y > 0.0
    ensures x * y > 0.0
  {
  }

  /** rho_d of the two-segment engines (rho_far of the single segment): the
      open circuit reflects +1, the short circuit -1, anything else the
      ordinary coefficient. The source tests the short circuit separately,
      but the formula already gives -1 there. */
  function FarReflection(rt: Termination, z: real): (rho: real)
    requires rt.Finite? ==> rt.r + z != 0.0
    ensures rt.Open? ==> rho == 1.0
    ensures rt == Finite(0.0) ==> rho == -1.0
    ensures rt.Finite? ==> rho * (rt.r + z) == rt.r - z
    ensures rt == Finite(z) ==> rho == 0.0
  {
    match rt
    case Open => 1.0
    case Finite(r) => if r == 0.0 then -1.0 else Reflection(r, z)
  }

  /** The voltage a step of `v` through `rs` launches onto a line of impedance
      `z` at time zero (a voltage divider). */
  function InitialVoltage(v: real, z: real, rs: real): (vi: real)
    requires z + rs != 0.0
    ensures vi * (z + rs) == z * v
  {
    z * v / (z + rs)
  }

  /** The DC voltage the far end settles to: the divider `rt/(rs + rt)`, the full
      source voltage when open, zero when shorted. */
  function SteadyVoltage(v: real, rs: real, rt: Termination): (vs: real)
    requires rt.Finite? ==> rs + rt.r != 0.0
    ensures rt.Open? ==> vs == v
    ensures rt == Finite(0.0) ==> vs == 0.0
    ensures rt.Finite? ==> vs * (rs + rt.r) == rt.r * v
  {
    match rt
    case Open => v
    case Finite(r) => if r == 0.0 then 0.0 else r * v / (rs + r)
  }

  /** The six coefficients of the two-segment line: rho at A (source end),
      B (junction, from line 0), C (junction, from line 1), D (far end), and
      the transmission coefficients through the junction in both directions. */
  datatype Junction = Junction(rhoA: real, rhoB: real, rhoC: real, rhoD: real, tB: real, tC: real)

  predicate JunctionDefined(z0: real, z1: real, rs: real, rt: Termination)
  {
    rs + z0 != 0.0 && z0 + z1 != 0.0 && (rt.Finite? ==> rt.r + z1 != 0.0)
  }

  /** Every divisor of a two-segment prelude is nonzero: those of the
      junction coefficients and that of the steady voltage, which is also
      the divisor of the launched current. */
  predicate PreludeDefined(z0: real, z1: real, rs: real, rt: Termination)
  {
    JunctionDefined(z0, z1, rs, rt) && (rt.Finite? ==> rs + rt.r != 0.0)
  }

  function JunctionCoefficients(z0: real, z1: real, rs: real, rt: Termination): (k: Junction)
    requires JunctionDefined(z0, z1, rs, rt)
    ensures k.rhoC == -k.rhoB
    ensures k.tB == 1.0 + k.rhoB && k.tC == 1.0 - k.rhoB && k.tB + k.tC == 2.0
    ensures z0 == z1 ==> k.rhoB == 0.0 && k.rhoC == 0.0 && k.tB == 1.0 && k.tC == 1.0
    ensures k.rhoA * (rs + z0) == rs - z0
    ensures k.rhoB * (z0 + z1) == z1 - z0
    ensures k.rhoD == FarReflection(rt, z1)
  {
    var rhoB := Reflection(z1, z0);
    var rhoC := Reflection(z0, z1);
    ReflectionAntisymmetric(z1, z0);
    Junction(Reflection(rs, z0), rhoB, rhoC, FarReflection(rt, z1), 1.0 + rhoB, 1.0 + rhoC)
  }

  /** For nonnegative resistances and positive impedances every reflection
      coefficient lies in [-1, 1] and both transmission coefficients in [0, 2]. */
  lemma JunctionBounds(z0: real, z1: real, rs: real, rt: Termination)
    requires z0 > 0.0 && z1 > 0.0 && rs >= 0.0 && (rt.Finite? ==> rt.r >= 0.0)
    ensures var k := JunctionCoefficients(z0, z1, rs, rt);
      && -1.0 <= k.rhoA <= 1.0 && -1.0 <= k.rhoB <= 1.0
      && -1.0 <= k.rhoC <= 1.0 && -1.0 <= k.rhoD <= 1.0
      && 0.0 <= k.tB <= 2.0 && 0.0 <= k.tC <= 2.0
  {
    ReflectionBounds(rs, z0);
    ReflectionBounds(z1, z0);
    ReflectionBounds(z0, z1);
    if rt.Finite? {
      ReflectionBounds(rt.r, z1);
    }
  }
}

=== FILE: double_lattice.dfy ===
/** The voltage engine of the two-segment lattice diagram (double_lattice.py):
    the coefficient prelude and the call into the shared beam engine with the
    launched voltage and the steady-voltage-scaled drop threshold. */
module DoubleLattice {
  import opened Coefficients
  import opened Beams
  import opened BeamEngine

  /** `run_diagram` (double_lattice.py lines 7-135) with the console output
      left out. At most `fuel` beams are popped; `drained` tells whether the
      queue emptied, after which the traces hold the source's result. It also
      returns the beams it popped and those it processed. */
  method RunDiagram(vSource: real, timeDelay0: real, timeDelay1: real,
                    lineImpedance0: real, lineImpedance1: real, rSource: real, rTermination: Termination,
                    tolerance: real, fuel: nat)
    returns (drained: bool, nearEndLevel: Trace, centralLevel: Trace, farEndLevel: Trace,
             popped: seq<Beam>, processed: seq<Beam>)
    requires PreludeDefined(lineImpedance0, lineImpedance1, rSource, rTermination)
    ensures Simulated(JunctionCoefficients(lineImpedance0, lineImpedance1, rSource, rTermination),
                      timeDelay0, timeDelay1, InitialVoltage(vSource, lineImpedance0, rSource),
                      Threshold(tolerance, SteadyVoltage(vSource, rSource, rTermination)), fuel,
                      drained, Traces(nearEndLevel, centralLevel, farEndLevel), popped, processed)
  {
    var vInitial := InitialVoltage(vSource, lineImpedance0, rSource);
    var vSteady := SteadyVoltage(vSource, rSource, rTermination);
    var k := JunctionCoefficients(lineImpedance0, lineImpedance1, rSource, rTermination);
    drained, nearEndLevel, centralLevel, farEndLevel, popped, processed :=
      Run(k, timeDelay0, timeDelay1, vInitial, Threshold(tolerance, vSteady), fuel);
  }

  /** With equal impedances the junction is invisible: a beam reaching it
      from either side sends a zero reflection, which is dropped as soon as
      it is popped, and passes its whole magnitude on through the junction,
      with the delay of the line it enters. */
  lemma UniformLineJunctionTransparent(z: real, rs: real, rt: Termination, T0: real, T1: real,
                                       x: Beam, tolerance: real, vSteady: real)
    requires PreludeDefined(z, z, rs, rt) && tolerance >= 0.0
    requires Handler(x) == Some(B) || Handler(x) == Some(C)
    ensures var k := JunctionCoefficients(z, z, rs, rt);
      forall y | y in Children(k, T0, T1, x) ::
        Peak(y) <= Threshold(tolerance, vSteady) || (Handler(y) != None && Magnitude(y) == Magnitude(x))
    ensures var k := JunctionCoefficients(z, z, rs, rt);
      Handler(x) == Some(B) ==>
        Children(k, T0, T1, x) == multiset{Into(A, x.time + T0, 0.0), Into(D, x.time + T1, x.b)}
    ensures var k := JunctionCoefficients(z, z, rs, rt);
      Handler(x) == Some(C) ==>
        Children(k, T0, T1, x) == multiset{Into(D, x.time + T1, 0.0), Into(A, x.time + T0, x.c)}
  {
    var k := JunctionCoefficients(z, z, rs, rt);
    ChildrenTable(k, T0, T1, x);
    var th := Threshold(tolerance, vSteady);
    if x.a == 0.0 && x.b != 0.0 {
      var u := Beam(x.time + T0, Scale(x.b, k.rhoB), 0.0, 0.0, 0.0);
      var w := Beam(x.time + T1, 0.0, 0.0, 0.0, Scale(x.b, k.tB));
      assert Children(k, T0, T1, x) == multiset{u, w};
      assert Peak(u) == 0.0;
    } else {
      var u := Beam(x.time + T1, 0.0, 0.0, 0.0, Scale(x.c, k.rhoC));
      var w := Beam(x.time + T0, Scale(x.c, k.tC), 0.0, 0.0, 0.0);
      assert Children(k, T0, T1, x) == multiset{u, w};
      assert Peak(u) == 0.0;
    }
  }
}

=== FILE: double_lattice_current.dfy ===
/** The current engine of the two-segment lattice diagram
    (double_lattice_current.py): the same beam engine, launched with the
    current the source computes and a drop threshold scaled by that initial
    current. This engine has no steady value. */
module DoubleLatticeCurrent {
  import opened Coefficients
  import opened Beams
  import opened BeamEngine

  /** `v_source / (r_termination + r_source)` (line 11). An open termination
      divides by infinity and gives 0, which the source keeps. */
  function InitialCurrent(v: real, rs: real, rt: Termination): (i: real)
    requires rt.Finite? ==> rt.r + rs != 0.0
    ensures rt.Open? ==> i == 0.0
    ensures rt.Finite? ==> i * (rt.r + rs) == v
  {
    match rt
    case Open => 0.0
    case Finite(r) => v / (r + rs)
  }

  /** `run_diagram` (double_lattice_current.py lines 7-126) with the console
      output left out. At most `fuel` beams are popped; `drained` tells
      whether the queue emptied, after which the traces hold the source's
      result. It also returns the beams it popped and those it processed. */
  method RunDiagram(vSource: real, timeDelay0: real, timeDelay1: real,
                    lineImpedance0: real, lineImpedance1: real, rSource: real, rTermination: Termination,
                    tolerance: real, fuel: nat)
    returns (drained: bool, nearEndLevel: Trace, centralLevel: Trace, farEndLevel: Trace,
             popped: seq<Beam>, processed: seq<Beam>)
    requires PreludeDefined(lineImpedance0, lineImpedance1, rSource, rTermination)
    ensures Simulated(JunctionCoefficients(lineImpedance0, lineImpedance1, rSource, rTermination),
                      timeDelay0, timeDelay1, InitialCurrent(vSource, rSource, rTermination),
                      Threshold(tolerance, InitialCurrent(vSource, rSource, rTermination)), fuel,
                      drained, Traces(nearEndLevel, centralLevel, farEndLevel), popped, processed)
  {
    var iInitial := InitialCurrent(vSource, rSource, rTermination);
    var k := JunctionCoefficients(lineImpedance0, lineImpedance1, rSource, rTermination);
    drained, nearEndLevel, centralLevel, farEndLevel, popped, processed :=
      Run(k, timeDelay0, timeDelay1, iInitial, Threshold(tolerance, iInitial), fuel);
  }

  /** With an open termination no current is launched: a run that may pop
      at all pops the seed, which has no nonzero slot, drops it (the
      threshold of a zero scale is never negative), finds the queue empty and
      stops; every trace stays at 0. */
  lemma OpenLineLaunchesNothing(k: Junction, v: real, rs: real, T0: real, T1: real, tolerance: real,
                                fuel: nat, drained: bool, ts: Traces, popped: seq<Beam>, processed: seq<Beam>)
    requires fuel >= 1
    requires Simulated(k, T0, T1, InitialCurrent(v, rs, Open), Threshold(tolerance, InitialCurrent(v, rs, Open)),
                       fuel, drained, ts, popped, processed)
    ensures drained && popped == [SeedBeam(T0, 0.0)] && processed == []
    ensures ts.near.levels == [0.0, 0.0, 0.0, 0.0]
    ensures ts.central.levels == [0.0, 0.0, 0.0] && ts.far.levels == [0.0, 0.0, 0.0]
  {
    QuietSeedDrains(k, T0, T1, 0.0, Threshold(tolerance, 0.0), fuel, drained, ts, popped, processed);
  }
}

=== FILE: engine.dfy ===
/** The discrete-event engine of the two-segment lattice diagram, shared by the
    voltage engine (double_lattice.py) and the current engine
    (double_lattice_current.py), which differ only in the value they launch and
    in the threshold below which a beam is dropped.

    A run pops beams from a time-ordered queue. A beam at or below the
    threshold is dropped; any other beam appends a hold point and a jump point
    to the trace of the interface it reaches and enqueues its reflected and
    transmitted children. When the queue is empty every trace gets one
    flattening point. */
module BeamEngine {
  import opened Coefficients
  import opened Beams
  import opened Sequences

  /** One waveform trace: the source's `[times, levels]` pair of lists. */
  datatype Trace = Trace(times: seq<real>, levels: seq<real>)

  /** The near-end, central (junction) and far-end traces. */
  datatype Traces = Traces(near: Trace, central: Trace, far: Trace)

  /** Times and levels have equal length, and there is a last level to repeat. */
  predicate WellFormed(tr: Trace)
  {
    |tr.times| == |tr.levels| > 0
  }

  predicate AllWellFormed(ts: Traces)
  {
    WellFormed(ts.near) && WellFormed(ts.central) && WellFormed(ts.far)
  }

  /** `r` is `tr` followed by a hold point (the previous level again) and a
      jump point, both at time `t`. */
  predicate Steps(tr: Trace, r: Trace, t: real)
    requires WellFormed(tr)
  {
    && r.times == tr.times + [t, t]
    && |r.levels| == |tr.levels| + 2
    && r.levels[..|tr.levels| + 1] == tr.levels + [Last(tr.levels)]
  }

  /** A hold-then-jump pair keeps the trace well formed and, when it comes no
      earlier than the trace's last time, keeps the times in order. */
  lemma StepsKeepOrder(tr: Trace, r: Trace, t: real)
    requires WellFormed(tr) && Steps(tr, r, t)
    ensures WellFormed(r) && tr.times <= r.times && tr.levels <= r.levels
    ensures Last(r.times) == t
    ensures Nondecreasing(tr.times) && Last(tr.times) <= t ==> Nondecreasing(r.times)
  {
    assert tr.levels == r.levels[..|tr.levels| + 1][..|tr.levels|];
  }

  /** Processing a beam only extends the traces, and keeps their times in
      order when the beam comes no earlier than any point already there. */
  lemma ApplyKeepsOrder(k: Junction, ts: Traces, x: Beam)
    requires AllWellFormed(ts)
    ensures var r := Apply(k, ts, x);
      && ts.near.times <= r.near.times && ts.near.levels <= r.near.levels
      && ts.central.times <= r.central.times && ts.central.levels <= r.central.levels
      && ts.far.times <= r.far.times && ts.far.levels <= r.far.levels
      && (Nondecreasing(ts.near.times) && Last(ts.near.times) <= x.time
          ==> Nondecreasing(r.near.times) && Last(r.near.times) <= x.time)
      && (Nondecreasing(ts.central.times) && Last(ts.central.times) <= x.time
          ==> Nondecreasing(r.central.times) && Last(r.central.times) <= x.time)
      && (Nondecreasing(ts.far.times) && Last(ts.far.times) <= x.time
          ==> Nondecreasing(r.far.times) && Last(r.far.times) <= x.time)
  {
    var r := Apply(k, ts, x);
    match Handler(x)
    case None =>
    case Some(p) =>
      if p == A {
        StepsKeepOrder(ts.near, r.near, x.time);
      } else if p == D {
        StepsKeepOrder(ts.far, r.far, x.time);
      } else {
        StepsKeepOrder(ts.central, r.central, x.time);
      }
  }

  /** One handler update of a trace by `delta` at time `t`. */
  function Jump(tr: Trace, t: real, delta: real): (r: Trace)
    requires WellFormed(tr)
    ensures WellFormed(r) && Steps(tr, r, t)
    ensures Last(r.levels) == Last(tr.levels) + delta
  {
    Trace(tr.times + [t, t], tr.levels + [Last(tr.levels), Last(tr.levels) + delta])
  }

  /** The flattening point appended when the queue is empty. */
  function Hold(tr: Trace, t: real): (r: Trace)
    requires WellFormed(tr)
    ensures WellFormed(r) && Flattened(r, t)
    ensures tr.times <= r.times && tr.levels <= r.levels && |r.times| == |tr.times| + 1
  {
    Trace(tr.times + [t], tr.levels + [Last(tr.levels)])
  }

  /** The trace ends with a point at time `t` that repeats the level before it. */
  predicate Flattened(tr: Trace, t: real)
  {
    && |tr.times| >= 2 && |tr.levels| >= 2
    && Last(tr.times) == t
    && Last(tr.levels) == tr.levels[|tr.levels| - 2]
  }

  function Finish(ts: Traces, t: real): Traces
    requires AllWellFormed(ts)
  {
    Traces(Hold(ts.near, t), Hold(ts.central, t), Hold(ts.far, t))
  }

  /** The traces before the first beam: every trace holds 0 from -T0 to 0, and
      the near end then rises to the launched value. */
  function Seeds(T0: real, initial: real): (ts: Traces)
    ensures AllWellFormed(ts)
  {
    Traces(Trace([-T0, 0.0, 0.0], [0.0, 0.0, initial]),
           Trace([-T0, 0.0], [0.0, 0.0]),
           Trace([-T0, 0.0], [0.0, 0.0]))
  }

  /** The first beam: the launched value travelling towards B, arriving at T0. */
  function SeedBeam(T0: real, initial: real): Beam
  {
    Beam(T0, 0.0, initial, 0.0, 0.0)
  }

  /** The reflection coefficient the handler of port `p` uses. */
  function Rho(k: Junction, p: Port): real
  {
    match p
    case A => k.rhoA
    case B => k.rhoB
    case C => k.rhoC
    case D => k.rhoD
  }

  /** The trace update of one processed beam (source lines 71-76, 83-88,
      99-104, 116-121): the trace of the beam's interface steps by
      magnitude * (1 + rho) and the other two traces are untouched. A beam
      with four zero slots matches no handler and changes nothing. */
  function Apply(k: Junction, ts: Traces, x: Beam): (r: Traces)
    requires AllWellFormed(ts)
    ensures AllWellFormed(r)
    ensures Handler(x) == None ==> r == ts
    ensures Handler(x) == Some(A) ==>
      Steps(ts.near, r.near, x.time) && r.central == ts.central && r.far == ts.far
      && Last(r.near.levels) == Last(ts.near.levels) + Scale(Magnitude(x), 1.0 + k.rhoA)
    ensures Handler(x) == Some(B) ==>
      Steps(ts.central, r.central, x.time) && r.near == ts.near && r.far == ts.far
      && Last(r.central.levels) == Last(ts.central.levels) + Scale(Magnitude(x), 1.0 + k.rhoB)
    ensures Handler(x) == Some(C) ==>
      Steps(ts.central, r.central, x.time) && r.near == ts.near && r.far == ts.far
      && Last(r.central.levels) == Last(ts.central.levels) + Scale(Magnitude(x), 1.0 + k.rhoC)
    ensures Handler(x) == Some(D) ==>
      Steps(ts.far, r.far, x.time) && r.near == ts.near && r.central == ts.central
      && Last(r.far.levels) == Last(ts.far.levels) + Scale(Magnitude(x), 1.0 + k.rhoD)
  {
    if x.a != 0.0 then ts.(near := Jump(ts.near, x.time, Scale(x.a, 1.0 + k.rhoA)))
    else if x.b != 0.0 then ts.(central := Jump(ts.central, x.time, Scale(x.b, 1.0 + k.rhoB)))
    else if x.c != 0.0 then ts.(central := Jump(ts.central, x.time, Scale(x.c, 1.0 + k.rhoC)))
    else if x.d != 0.0 then ts.(far := Jump(ts.far, x.time, Scale(x.d, 1.0 + k.rhoD)))
    else ts
  }

  /** The beams a processed beam enqueues (source lines 78-80, 90-96, 107-113,
      123-125): one child from A or D, two from the junction, none when no
      handler matches. Each child has a single slot and arrives one transit
      delay of the line it crosses after its parent. */
  function Children(k: Junction, T0: real, T1: real, x: Beam): multiset<Beam>
  {
    if x.a != 0.0 then
      multiset{Beam(x.time + T0, 0.0, Scale(x.a, k.rhoA), 0.0, 0.0)}
    else if x.b != 0.0 then
      multiset{Beam(x.time + T0, Scale(x.b, k.rhoB), 0.0, 0.0, 0.0),
               Beam(x.time + T1, 0.0, 0.0, 0.0, Scale(x.b, k.tB))}
    else if x.c != 0.0 then
      multiset{Beam(x.time + T1, 0.0, 0.0, 0.0, Scale(x.c, k.rhoC)),
               Beam(x.time + T0, Scale(x.c, k.tC), 0.0, 0.0, 0.0)}
    else if x.d != 0.0 then
      multiset{Beam(x.time + T1, 0.0, 0.0, Scale(x.d, k.rhoD), 0.0)}
    else
      multiset{}
  }

  /** The spawn rule stated per interface: A reflects back towards B over
      line 0; B reflects towards A over line 0 and transmits towards D over
      line 1; C reflects towards D over line 1 and transmits towards A over
      line 0; D reflects towards C over line 1. */
  lemma ChildrenTable(k: Junction, T0: real, T1: real, x: Beam)
    ensures Handler(x) == Some(A) ==>
      Children(k, T0, T1, x) == multiset{Beam(x.time + T0, 0.0, Scale(x.a, k.rhoA), 0.0, 0.0)}
    ensures Handler(x) == Some(B) ==>
      Children(k, T0, T1, x) == multiset{Beam(x.time + T0, Scale(x.b, k.rhoB), 0.0, 0.0, 0.0),
                                         Beam(x.time + T1, 0.0, 0.0, 0.0, Scale(x.b, k.tB))}
    ensures Handler(x) == Some(C) ==>
      Children(k, T0, T1, x) == multiset{Beam(x.time + T1, 0.0, 0.0, 0.0, Scale(x.c, k.rhoC)),
                                         Beam(x.time + T0, Scale(x.c, k.tC), 0.0, 0.0, 0.0)}
    ensures Handler(x) == Some(D) ==>
      Children(k, T0, T1, x) == multiset{Beam(x.time + T1, 0.0, 0.0, Scale(x.d, k.rhoD), 0.0)}
  {
  }

  /** Every child has a single slot and arrives one transit delay after its
      parent; a beam has children exactly when a handler matches it, one at
      the ends and two at the junction. */
  lemma ChildrenShape(k: Junction, T0: real, T1: real, x: Beam)
    ensures var r := Children(k, T0, T1, x);
      && (forall y | y in r :: SingleSlot(y))
      && (forall y | y in r :: y.time == x.time + T0 || y.time == x.time + T1)
      && (Handler(x) == None <==> r == multiset{})
      && (Handler(x) == Some(A) || Handler(x) == Some(D) ==> |r| == 1)
      && (Handler(x) == Some(B) || Handler(x) == Some(C) ==> |r| == 2)
  {
    ChildrenTable(k, T0, T1, x);
    var r := Children(k, T0, T1, x);
    if x.a != 0.0 {
      var u := Beam(x.time + T0, 0.0, Scale(x.a, k.rhoA), 0.0, 0.0);
      assert r == multiset{u};
    } else if x.b != 0.0 {
      var u := Beam(x.time + T0, Scale(x.b, k.rhoB), 0.0, 0.0, 0.0);
      var w := Beam(x.time + T1, 0.0, 0.0, 0.0, Scale(x.b, k.tB));
      assert r == multiset{u, w};
    } else if x.c != 0.0 {
      var u := Beam(x.time + T1, 0.0, 0.0, 0.0, Scale(x.c, k.rhoC));
      var w := Beam(x.time + T0, Scale(x.c, k.tC), 0.0, 0.0, 0.0);
      assert r == multiset{u, w};
    } else if x.d != 0.0 {
      var u := Beam(x.time + T1, 0.0, 0.0, Scale(x.d, k.rhoD), 0.0);
      assert r == multiset{u};
    }
  }

  /** With positive delays every child arrives strictly after its parent. */
  lemma ChildrenLater(k: Junction, T0: real, T1: real, x: Beam)
    requires T0 > 0.0 && T1 > 0.0
    ensures forall y | y in Children(k, T0, T1, x) :: y.time > x.time
  {
  }

  /** A matched termination (rho_d = 0) absorbs: the reflection a D beam
      sends back is zero and is dropped as soon as it is popped. */
  lemma MatchedFarEndAbsorbs(k: Junction, T0: real, T1: real, t: real, m: real, threshold: real)
    requires k.rhoD == 0.0 && threshold >= 0.0
    ensures forall y | y in Children(k, T0, T1, Into(D, t, m)) :: Peak(y) <= threshold && Handler(y) == None
  {
  }

  /** The drop threshold `max(tolerance, tolerance * scale)`: a beam whose
      largest slot is at or below it is not followed. The voltage engine
      scales by the steady voltage, the current engine by the initial
      current. */
  function Threshold(tolerance: real, scale: real): (t: real)
    ensures t >= tolerance && t >= tolerance * scale
    ensures t == tolerance || t == tolerance * scale
  {
    Max(tolerance, tolerance * scale)
  }

  /** The processed beams: those popped beams whose peak exceeds the threshold,
      in popping order (source lines 67-69). */
  function Kept(threshold: real, popped: seq<Beam>): (r: seq<Beam>)
    ensures |r| <= |popped|
    ensures forall x :: x in r <==> x in popped && Peak(x) > threshold
    decreases |popped|
  {
    if popped == [] then []
    else
      var rest := Kept(threshold, popped[..|popped| - 1]);
      var x := popped[|popped| - 1];
      assert popped == popped[..|popped| - 1] + [x];
      if Peak(x) <= threshold then rest else rest + [x]
  }

  /** Every beam the processed beams enqueue. */
  function Spawned(k: Junction, T0: real, T1: real, processed: seq<Beam>): multiset<Beam>
    decreases |processed|
  {
    if processed == [] then multiset{}
    else Spawned(k, T0, T1, processed[..|processed| - 1])
         + Children(k, T0, T1, processed[|processed| - 1])
  }

  /** The traces after processing `log` in order, starting from `seeds`. */
  function Replay(k: Junction, seeds: Traces, log: seq<Beam>): (r: Traces)
    requires AllWellFormed(seeds)
    ensures AllWellFormed(r)
    decreases |log|
  {
    if log == [] then seeds
    else Apply(k, Replay(k, seeds, log[..|log| - 1]), log[|log| - 1])
  }

  /** The sum of the jumps that the beams of `log` handled at port `p` contribute. */
  function Rise(k: Junction, log: seq<Beam>, p: Port): real
    decreases |log|
  {
    if log == [] then 0.0
    else
      var x := log[|log| - 1];
      Rise(k, log[..|log| - 1], p)
      + (if Handler(x) == Some(p) then Scale(Magnitude(x), 1.0 + Rho(k, p)) else 0.0)
  }

  /** The number of beams of `log` handled at port `p`. */
  function Count(log: seq<Beam>, p: Port): nat
    decreases |log|
  {
    if log == [] then 0
    else Count(log[..|log| - 1], p) + (if Handler(log[|log| - 1]) == Some(p) then 1 else 0)
  }

  /** Each trace's final level is its seed level plus the jumps of the beams
      handled at its interfaces: the near end collects A, the junction B and
      C, the far end D. The order of the beams does not matter. */
  lemma {:induction false} ReplayLevels(k: Junction, seeds: Traces, log: seq<Beam>)
    requires AllWellFormed(seeds)
    ensures Last(Replay(k, seeds, log).near.levels) == Last(seeds.near.levels) + Rise(k, log, A)
    ensures Last(Replay(k, seeds, log).central.levels)
         == Last(seeds.central.levels) + Rise(k, log, B) + Rise(k, log, C)
    ensures Last(Replay(k, seeds, log).far.levels) == Last(seeds.far.levels) + Rise(k, log, D)
    decreases |log|
  {
    if log != [] {
      var front, x := log[..|log| - 1], log[|log| - 1];
      ReplayLevels(k, seeds, front);
      var before := Replay(k, seeds, front);
      var after := Apply(k, before, x);
      assert Replay(k, seeds, log) == after;
      var h := Handler(x);
      var delta := Scale(Magnitude(x), 1.0 + Rho(k, if h.Some? then h.value else A));
      assert Rise(k, log, A) == Rise(k, front, A) + (if h == Some(A) then delta else 0.0);
      assert Rise(k, log, B) == Rise(k, front, B) + (if h == Some(B) then delta else 0.0);
      assert Rise(k, log, C) == Rise(k, front, C) + (if h == Some(C) then delta else 0.0);
      assert Rise(k, log, D) == Rise(k, front, D) + (if h == Some(D) then delta else 0.0);
    }
  }

  /** Each trace gains exactly two points per beam handled at its interfaces. */
  lemma {:induction false} ReplayLengths(k: Junction, seeds: Traces, log: seq<Beam>)
    requires AllWellFormed(seeds)
    ensures |Replay(k, seeds, log).near.times| == |seeds.near.times| + 2 * Count(log, A)
    ensures |Replay(k, seeds, log).central.times|
         == |seeds.central.times| + 2 * (Count(log, B) + Count(log, C))
    ensures |Replay(k, seeds, log).far.times| == |seeds.far.times| + 2 * Count(log, D)
    decreases |log|
  {
    if log != [] {
      var front, x := log[..|log| - 1], log[|log| - 1];
      ReplayLengths(k, seeds, front);
      var before := Replay(k, seeds, front);
      assert Replay(k, seeds, log) == Apply(k, before, x);
    }
  }

  /** How far the source moves its clock while handling `x`: the beam it
      sends on last crosses line 0 from A and C, line 1 from B and D; a beam
      that matches no handler leaves the clock where it is. */
  function Transit(T0: real, T1: real, x: Beam): real
  {
    if x.a != 0.0 then T0
    else if x.b != 0.0 then T1
    else if x.c != 0.0 then T0
    else if x.d != 0.0 then T1
    else 0.0
  }

  /** After a handler runs, the clock reads the arrival time of one of the
      children it enqueued. */
  lemma TransitLandsOnChild(k: Junction, T0: real, T1: real, x: Beam)
    requires Handler(x) != None
    ensures exists y :: y in Children(k, T0, T1, x) && y.time == x.time + Transit(T0, T1, x)
  {
    ChildrenTable(k, T0, T1, x);
    match Handler(x)
    case Some(A) =>
      assert Transit(T0, T1, x) == T0;
      assert Beam(x.time + T0, 0.0, Scale(x.a, k.rhoA), 0.0, 0.0) in Children(k, T0, T1, x);
    case Some(B) =>
      assert Transit(T0, T1, x) == T1;
      assert Beam(x.time + T1, 0.0, 0.0, 0.0, Scale(x.b, k.tB)) in Children(k, T0, T1, x);
    case Some(C) =>
      assert Transit(T0, T1, x) == T0;
      assert Beam(x.time + T0, Scale(x.c, k.tC), 0.0, 0.0, 0.0) in Children(k, T0, T1, x);
    case Some(D) =>
      assert Transit(T0, T1, x) == T1;
      assert Beam(x.time + T1, 0.0, 0.0, Scale(x.d, k.rhoD), 0.0) in Children(k, T0, T1, x);
  }

  /** The clock once beam `x` has been popped and, if it is strong enough,
      handled. */
  function Resume(T0: real, T1: real, threshold: real, x: Beam): real
  {
    if Peak(x) <= threshold then x.time else x.time + Transit(T0, T1, x)
  }

  /** The handler of a beam arriving at A, the near end (source lines 71-81):
      hold and jump the near-end trace, send the reflection back towards B. */
  method ArriveNear(k: Junction, T0: real, T1: real, x: Beam, near: Trace, queue: multiset<Beam>)
    returns (time: real, near': Trace, queue': multiset<Beam>)
    requires x.a != 0.0 && WellFormed(near)
    ensures near' == Jump(near, x.time, Scale(x.a, 1.0 + k.rhoA))
    ensures queue' == queue + Children(k, T0, T1, x)
    ensures time == x.time + Transit(T0, T1, x)
  {
    time := x.time;
    var last := Last(near.levels);
    near' := Trace(near.times + [time, time], near.levels + [last, last + Scale(x.a, 1.0 + k.rhoA)]);
    time := time + T0;
    queue' := queue + multiset{Beam(time, 0.0, Scale(x.a, k.rhoA), 0.0, 0.0)};
  }

  /** The handler of a beam arriving at B, the junction seen from line 0
      (source lines 83-97): hold and jump the central trace, reflect back
      towards A and transmit towards D. */
  method ArriveJunctionFromNear(k: Junction, T0: real, T1: real, x: Beam, central: Trace,
                                queue: multiset<Beam>)
    returns (time: real, central': Trace, queue': multiset<Beam>)
    requires x.a == 0.0 && x.b != 0.0 && WellFormed(central)
    ensures central' == Jump(central, x.time, Scale(x.b, 1.0 + k.rhoB))
    ensures queue' == queue + Children(k, T0, T1, x)
    ensures time == x.time + Transit(T0, T1, x)
  {
    time := x.time;
    var last := Last(central.levels);
    central' := Trace(central.times + [time, time], central.levels + [last, last + Scale(x.b, 1.0 + k.rhoB)]);
    queue' := queue + multiset{Beam(time + T0, Scale(x.b, k.rhoB), 0.0, 0.0, 0.0)};
    time := time + T1;
    queue' := queue' + multiset{Beam(time, 0.0, 0.0, 0.0, Scale(x.b, k.tB))};
  }

  /** The handler of a beam arriving at C, the junction seen from line 1
      (source lines 99-114): hold and jump the central trace, reflect back
      towards D and transmit towards A. */
  method ArriveJunctionFromFar(k: Junction, T0: real, T1: real, x: Beam, central: Trace,
                               queue: multiset<Beam>)
    returns (time: real, central': Trace, queue': multiset<Beam>)
    requires x.a == 0.0 && x.b == 0.0 && x.c != 0.0 && WellFormed(central)
    ensures central' == Jump(central, x.time, Scale(x.c, 1.0 + k.rhoC))
    ensures queue' == queue + Children(k, T0, T1, x)
    ensures time == x.time + Transit(T0, T1, x)
  {
    time := x.time;
    var last := Last(central.levels);
    central' := Trace(central.times + [time, time], central.levels + [last, last + Scale(x.c, 1.0 + k.rhoC)]);
    queue' := queue + multiset{Beam(time + T1, 0.0, 0.0, 0.0, Scale(x.c, k.rhoC))};
    time := time + T0;
    queue' := queue' + multiset{Beam(time, Scale(x.c, k.tC), 0.0, 0.0, 0.0)};
  }

  /** The handler of a beam arriving at D, the far end (source lines 116-126):
      hold and jump the far-end trace, send the reflection back towards C. */
  method ArriveFar(k: Junction, T0: real, T1: real, x: Beam, far: Trace, queue: multiset<Beam>)
    returns (time: real, far': Trace, queue': multiset<Beam>)
    requires x.a == 0.0 && x.b == 0.0 && x.c == 0.0 && x.d != 0.0 && WellFormed(far)
    ensures far' == Jump(far, x.time, Scale(x.d, 1.0 + k.rhoD))
    ensures queue' == queue + Children(k, T0, T1, x)
    ensures time == x.time + Transit(T0, T1, x)
  {
    time := x.time;
    var last := Last(far.levels);
    far' := Trace(far.times + [time, time], far.levels + [last, last + Scale(x.d, 1.0 + k.rhoD)]);
    time := time + T1;
    queue' := queue + multiset{Beam(time, 0.0, 0.0, Scale(x.d, k.rhoD), 0.0)};
  }

  /** The loop body after the threshold test (source lines 71-126): the first
      nonzero slot picks the handler, and each handler ends the iteration as
      the source's `continue` does; a beam with four zero slots falls
      through all four and changes nothing. */
  method Handle(k: Junction, T0: real, T1: real, x: Beam,
                near: Trace, central: Trace, far: Trace, queue: multiset<Beam>)
    returns (time: real, near': Trace, central': Trace, far': Trace, queue': multiset<Beam>)
    requires AllWellFormed(Traces(near, central, far))
    ensures Traces(near', central', far') == Apply(k, Traces(near, central, far), x)
    ensures queue' == queue + Children(k, T0, T1, x)
    ensures time == x.time + Transit(T0, T1, x)
  {
    near', central', far', queue', time := near, central, far, queue, x.time;
    if x.a != 0.0 {
      time, near', queue' := ArriveNear(k, T0, T1, x, near, queue);
      return;
    }
    if x.b != 0.0 {
      time, central', queue' := ArriveJunctionFromNear(k, T0, T1, x, central, queue);
      return;
    }
    if x.c != 0.0 {
      time, central', queue' := ArriveJunctionFromFar(k, T0, T1, x, central, queue);
      return;
    }
    if x.d != 0.0 {
      time, far', queue' := ArriveFar(k, T0, T1, x, far, queue);
      return;
    }
  }

  /** Every beam of the queue has a single slot. */
  predicate AllSingle(queue: multiset<Beam>)
  {
    forall y | y in queue :: SingleSlot(y)
  }

  /** No beam of the queue arrives before time `t`. */
  predicate NotBefore(queue: multiset<Beam>, t: real)
  {
    forall y | y in queue :: t <= y.time
  }

  /** The popped beams come out in time order. */
  predicate InTimeOrder(popped: seq<Beam>)
  {
    forall i, j | 0 <= i <= j < |popped| :: popped[i].time <= popped[j].time
  }

  /** Enqueueing the children of a beam keeps every queued beam single-slot
      and, with nonnegative delays, keeps the queue no earlier than the beam. */
  lemma EnqueueKeeps(k: Junction, T0: real, T1: real, x: Beam, queue: multiset<Beam>)
    ensures AllSingle(queue) ==> AllSingle(queue + Children(k, T0, T1, x))
    ensures T0 >= 0.0 && T1 >= 0.0 && NotBefore(queue, x.time)
            ==> NotBefore(queue + Children(k, T0, T1, x), x.time)
  {
    ChildrenShape(k, T0, T1, x);
  }

  /** What a run of the engine produces, given the beams it popped (in order)
      and those it processed: `fuel` bounds the number of pops and `drained`
      tells whether the queue emptied within it. Once drained, every beam
      ever enqueued has been popped, and each trace ends with one flattening
      point one longest transit delay after the clock of the last pop. */
  ghost predicate Simulated(k: Junction, T0: real, T1: real, initial: real, threshold: real, fuel: nat,
                            drained: bool, ts: Traces, popped: seq<Beam>, processed: seq<Beam>)
  {
    && Popped(T0, initial, threshold, fuel, drained, popped, processed)
    && Scheduled(k, T0, T1, initial, threshold, drained, popped)
    && Traced(k, T0, T1, initial, threshold, drained, ts, popped, processed)
    && (T0 >= 0.0 && T1 >= 0.0 ==> InTimeOrder(popped) && TracesInOrder(ts))
  }

  /** The traces of a run: the replay of the processed beams, followed by the
      flattening points once the queue drained. */
  ghost predicate Traced(k: Junction, T0: real, T1: real, initial: real, threshold: real,
                         drained: bool, ts: Traces, popped: seq<Beam>, processed: seq<Beam>)
  {
    && (!drained ==> ts == Replay(k, Seeds(T0, initial), processed))
    && (drained ==> Drained(k, T0, T1, initial, threshold, ts, popped, processed))
  }

  /** At most `fuel` pops, all of them when the queue did not drain; the seed
      comes out first; every popped beam has a single slot; the processed
      beams are the popped ones above the threshold. */
  ghost predicate Popped(T0: real, initial: real, threshold: real, fuel: nat, drained: bool,
                         popped: seq<Beam>, processed: seq<Beam>)
  {
    && |popped| <= fuel
    && (!drained ==> |popped| == fuel)
    && (fuel > 0 ==> |popped| > 0 && popped[0] == SeedBeam(T0, initial))
    && (forall i | 0 <= i < |popped| :: SingleSlot(popped[i]))
    && processed == Kept(threshold, popped)
  }

  /** The queue once the beams `popped` have come out, in order: it starts
      with the seed; each pop takes its beam out and, when the beam is
      strong enough to follow, puts its children in. */
  ghost function Waiting(k: Junction, T0: real, T1: real, initial: real, threshold: real,
                         popped: seq<Beam>): multiset<Beam>
    decreases |popped|
  {
    if popped == [] then multiset{SeedBeam(T0, initial)}
    else
      var x := popped[|popped| - 1];
      Waiting(k, T0, T1, initial, threshold, popped[..|popped| - 1]) - multiset{x}
      + (if Peak(x) > threshold then Children(k, T0, T1, x) else multiset{})
  }

  /** `x` is what the queue hands out after `before`: a waiting beam no
      later than any other waiting beam. */
  ghost predicate PoppedNext(k: Junction, T0: real, T1: real, initial: real, threshold: real,
                             before: seq<Beam>, x: Beam)
  {
    x in Waiting(k, T0, T1, initial, threshold, before)
    && Earliest(x, Waiting(k, T0, T1, initial, threshold, before))
  }

  /** Every popped beam came out in its turn. */
  ghost predicate PoppedInTurn(k: Junction, T0: real, T1: real, initial: real, threshold: real,
                               popped: seq<Beam>)
    decreases |popped|
  {
    popped != [] ==>
      && PoppedInTurn(k, T0, T1, initial, threshold, popped[..|popped| - 1])
      && PoppedNext(k, T0, T1, initial, threshold, popped[..|popped| - 1], popped[|popped| - 1])
  }

  /** Each popped beam was an earliest waiting beam once the beams before it
      had come out. */
  lemma {:induction false} PoppedAt(k: Junction, T0: real, T1: real, initial: real, threshold: real,
                                    popped: seq<Beam>, n: nat)
    requires PoppedInTurn(k, T0, T1, initial, threshold, popped)
    requires n < |popped|
    ensures PoppedNext(k, T0, T1, initial, threshold, popped[..n], popped[n])
    decreases |popped|
  {
    var front := popped[..|popped| - 1];
    if n < |front| {
      PoppedAt(k, T0, T1, initial, threshold, front, n);
      assert front[..n] == popped[..n];
    }
  }

  /** The beams came out of the queue in their turn, and the run drained
      exactly when nothing is left waiting. */
  ghost predicate Scheduled(k: Junction, T0: real, T1: real, initial: real, threshold: real,
                            drained: bool, popped: seq<Beam>)
  {
    && PoppedInTurn(k, T0, T1, initial, threshold, popped)
    && (drained <==> Waiting(k, T0, T1, initial, threshold, popped) == multiset{})
  }

  /** A drained run popped the seed and every child of every processed beam,
      and its traces are the replay followed by the flattening points. */
  ghost predicate Drained(k: Junction, T0: real, T1: real, initial: real, threshold: real, ts: Traces,
                          popped: seq<Beam>, processed: seq<Beam>)
  {
    && |popped| > 0
    && multiset(popped) == multiset{SeedBeam(T0, initial)} + Spawned(k, T0, T1, processed)
    && ts == Finish(Replay(k, Seeds(T0, initial), processed),
                    Resume(T0, T1, threshold, popped[|popped| - 1]) + Max(T0, T1))
  }

  predicate TracesInOrder(ts: Traces)
  {
    Nondecreasing(ts.near.times) && Nondecreasing(ts.central.times) && Nondecreasing(ts.far.times)
  }

  /** The traces replay, in order, the popped beams strong enough to follow. */
  ghost predicate Replayed(k: Junction, T0: real, initial: real, threshold: real, ts: Traces,
                           popped: seq<Beam>, processed: seq<Beam>)
  {
    && ts == Replay(k, Seeds(T0, initial), processed)
    && AllWellFormed(ts)
    && processed == Kept(threshold, popped)
  }

  /** Every beam ever enqueued (the seed and the children of the processed
      beams) has been popped or is still queued, and every beam has a single
      slot. */
  ghost predicate Accounted(k: Junction, T0: real, T1: real, initial: real,
                            queue: multiset<Beam>, popped: seq<Beam>, processed: seq<Beam>)
  {
    && multiset(popped) + queue == multiset{SeedBeam(T0, initial)} + Spawned(k, T0, T1, processed)
    && AllSingle(queue)
    && (forall i | 0 <= i < |popped| :: SingleSlot(popped[i]))
  }

  /** The seed comes out first; `clock` is the time of the last pop and
      `time` the source's clock after handling it. */
  ghost predicate Clocked(T0: real, T1: real, initial: real, threshold: real,
                          queue: multiset<Beam>, time: real, clock: real, popped: seq<Beam>)
  {
    && (popped == [] ==> queue == multiset{SeedBeam(T0, initial)} && clock == T0)
    && (popped != [] ==> popped[0] == SeedBeam(T0, initial) && clock == popped[|popped| - 1].time
                         && time == Resume(T0, T1, threshold, popped[|popped| - 1]))
  }

  /** Nothing queued lies before the last pop, and nothing popped or
      recorded lies after it. */
  ghost predicate Ordered(queue: multiset<Beam>, clock: real, ts: Traces, popped: seq<Beam>)
  {
    && NotBefore(queue, clock) && InTimeOrder(popped)
    && (forall i | 0 <= i < |popped| :: popped[i].time <= clock)
    && AllWellFormed(ts)
    && Nondecreasing(ts.near.times) && Last(ts.near.times) <= clock
    && Nondecreasing(ts.central.times) && Last(ts.central.times) <= clock
    && Nondecreasing(ts.far.times) && Last(ts.far.times) <= clock
  }

  /** The state of the beam-queue loop after popping `popped`; the ordering
      part holds when the delays are nonnegative. */
  ghost predicate Progress(k: Junction, T0: real, T1: real, initial: real, threshold: real,
                           queue: multiset<Beam>, time: real, clock: real, ts: Traces,
                           popped: seq<Beam>, processed: seq<Beam>)
  {
    && Replayed(k, T0, initial, threshold, ts, popped, processed)
    && Accounted(k, T0, T1, initial, queue, popped, processed)
    && Clocked(T0, T1, initial, threshold, queue, time, clock, popped)
    && (T0 >= 0.0 && T1 >= 0.0 ==> Ordered(queue, clock, ts, popped))
  }

  /** The state before the first pop. */
  lemma StartProgress(k: Junction, T0: real, T1: real, initial: real, threshold: real)
    ensures Progress(k, T0, T1, initial, threshold, multiset{SeedBeam(T0, initial)}, T0, T0,
                     Seeds(T0, initial), [], [])
  {
  }

  /** Popping the earliest beam keeps every beam accounted for, the traces in
      order and the popped beams in time order. */
  lemma PopKeepsOrder(queue: multiset<Beam>, clock: real, ts: Traces, popped: seq<Beam>, x: Beam)
    requires Ordered(queue, clock, ts, popped)
    requires x in queue && Earliest(x, queue)
    ensures Ordered(queue - multiset{x}, x.time, ts, popped + [x])
  {
  }

  /** Popping a beam too weak to follow keeps the loop state; `queue'` and
      `popped'` are the queue and the popped beams afterwards. */
  lemma DropKeepsProgress(k: Junction, T0: real, T1: real, initial: real, threshold: real,
                          queue: multiset<Beam>, time: real, clock: real, ts: Traces,
                          popped: seq<Beam>, processed: seq<Beam>, x: Beam,
                          queue': multiset<Beam>, popped': seq<Beam>)
    requires Progress(k, T0, T1, initial, threshold, queue, time, clock, ts, popped, processed)
    requires x in queue && Earliest(x, queue) && Peak(x) <= threshold
    requires queue' == queue - multiset{x} && popped' == popped + [x]
    ensures Progress(k, T0, T1, initial, threshold, queue', x.time, x.time, ts, popped', processed)
  {
    assert popped'[..|popped|] == popped;
    assert multiset(popped') + queue' == multiset(popped) + queue;
    if T0 >= 0.0 && T1 >= 0.0 {
      PopKeepsOrder(queue, clock, ts, popped, x);
    }
  }

  /** Handling a popped beam replays it onto the traces. */
  lemma HandleKeepsReplay(k: Junction, T0: real, initial: real, threshold: real, ts: Traces,
                          popped: seq<Beam>, processed: seq<Beam>, x: Beam)
    requires Replayed(k, T0, initial, threshold, ts, popped, processed)
    requires Peak(x) > threshold
    ensures Replayed(k, T0, initial, threshold, Apply(k, ts, x), popped + [x], processed + [x])
  {
    var popped', processed' := popped + [x], processed + [x];
    assert popped'[..|popped|] == popped;
    assert processed'[..|processed|] == processed;
  }

  /** Handling a popped beam enqueues exactly what it spawns. */
  lemma HandleKeepsAccount(k: Junction, T0: real, T1: real, initial: real,
                           queue: multiset<Beam>, popped: seq<Beam>, processed: seq<Beam>, x: Beam)
    requires Accounted(k, T0, T1, initial, queue, popped, processed)
    requires x in queue
    ensures Accounted(k, T0, T1, initial, queue - multiset{x} + Children(k, T0, T1, x),
                      popped + [x], processed + [x])
  {
    var popped', processed' := popped + [x], processed + [x];
    assert processed'[..|processed|] == processed;
    var spawned := Children(k, T0, T1, x);
    assert Spawned(k, T0, T1, processed') == Spawned(k, T0, T1, processed) + spawned;
    assert multiset(popped') == multiset(popped) + multiset{x};
    MoveToPopped(multiset(popped), queue, x, spawned);
    EnqueueKeeps(k, T0, T1, x, queue - multiset{x});
  }

  /** Moving a queued beam to the popped ones and queueing its children
      adds the children to the whole. */
  lemma MoveToPopped(done: multiset<Beam>, queue: multiset<Beam>, x: Beam, spawned: multiset<Beam>)
    requires x in queue
    ensures done + multiset{x} + (queue - multiset{x} + spawned) == done + queue + spawned
  {
  }

  /** Handling a popped beam keeps the traces and the queue in time order. */
  lemma HandleKeepsOrder(k: Junction, T0: real, T1: real, queue: multiset<Beam>, clock: real,
                         ts: Traces, popped: seq<Beam>, x: Beam)
    requires T0 >= 0.0 && T1 >= 0.0
    requires Ordered(queue, clock, ts, popped)
    requires x in queue && Earliest(x, queue)
    ensures Ordered(queue - multiset{x} + Children(k, T0, T1, x), x.time, Apply(k, ts, x), popped + [x])
  {
    PopKeepsOrder(queue, clock, ts, popped, x);
    ApplyKeepsOrder(k, ts, x);
    EnqueueKeeps(k, T0, T1, x, queue - multiset{x});
  }

  /** Popping and handling a beam keeps the loop state; the primed
      arguments are the state afterwards. */
  lemma HandleKeepsProgress(k: Junction, T0: real, T1: real, initial: real, threshold: real,
                            queue: multiset<Beam>, time: real, clock: real, ts: Traces,
                            popped: seq<Beam>, processed: seq<Beam>, x: Beam,
                            queue': multiset<Beam>, time': real, ts': Traces,
                            popped': seq<Beam>, processed': seq<Beam>)
    requires Progress(k, T0, T1, initial, threshold, queue, time, clock, ts, popped, processed)
    requires x in queue && Earliest(x, queue) && Peak(x) > threshold
    requires queue' == queue - multiset{x} + Children(k, T0, T1, x)
    requires time' == x.time + Transit(T0, T1, x) && ts' == Apply(k, ts, x)
    requires popped' == popped + [x] && processed' == processed + [x]
    ensures Progress(k, T0, T1, initial, threshold, queue', time', x.time, ts', popped', processed')
  {
    HandleKeepsReplay(k, T0, initial, threshold, ts, popped, processed, x);
    HandleKeepsAccount(k, T0, T1, initial, queue, popped, processed, x);
    if T0 >= 0.0 && T1 >= 0.0 {
      HandleKeepsOrder(k, T0, T1, queue, clock, ts, popped, x);
    }
  }

  /** Popping an earliest beam `x` of the queue pops it in its turn, and the
      queue that follows, the old one less `x` plus, when `x` is strong
      enough to follow, its children, is the one the pop leaves waiting. */
  lemma PopInTurn(k: Junction, T0: real, T1: real, initial: real, threshold: real,
                  queue: multiset<Beam>, popped: seq<Beam>, x: Beam,
                  queue': multiset<Beam>, popped': seq<Beam>)
    requires queue == Waiting(k, T0, T1, initial, threshold, popped)
    requires PoppedInTurn(k, T0, T1, initial, threshold, popped)
    requires x in queue && Earliest(x, queue) && popped' == popped + [x]
    requires queue' == queue - multiset{x} + if Peak(x) > threshold then Children(k, T0, T1, x) else multiset{}
    ensures PoppedInTurn(k, T0, T1, initial, threshold, popped')
    ensures queue' == Waiting(k, T0, T1, initial, threshold, popped')
  {
    assert popped'[..|popped'| - 1] == popped;
  }

  /** Where the loop stops: with the queue empty, the flattening points
      follow; with the pops used up, the traces are left as they are. */
  lemma ProgressSimulated(k: Junction, T0: real, T1: real, initial: real, threshold: real, fuel: nat,
                          queue: multiset<Beam>, time: real, clock: real, ts: Traces,
                          popped: seq<Beam>, processed: seq<Beam>, drained: bool, time': real, ts': Traces)
    requires Progress(k, T0, T1, initial, threshold, queue, time, clock, ts, popped, processed)
    requires PoppedInTurn(k, T0, T1, initial, threshold, popped)
    requires queue == Waiting(k, T0, T1, initial, threshold, popped)
    requires |popped| <= fuel && (queue != multiset{} ==> |popped| == fuel)
    requires drained == (queue == multiset{})
    requires time' == time + Max(T0, T1)
    requires ts' == if drained then Finish(ts, time') else ts
    ensures Simulated(k, T0, T1, initial, threshold, fuel, drained, ts', popped, processed)
  {
    ProgressPopped(k, T0, T1, initial, threshold, fuel, queue, time, clock, ts, popped, processed);
    if drained {
      ProgressDrained(k, T0, T1, initial, threshold, time, clock, ts, popped, processed);
      if T0 >= 0.0 && T1 >= 0.0 {
        DrainedOrder(T0, T1, initial, threshold, time, clock, ts, popped);
      }
    }
  }

  lemma ProgressPopped(k: Junction, T0: real, T1: real, initial: real, threshold: real, fuel: nat,
                       queue: multiset<Beam>, time: real, clock: real, ts: Traces,
                       popped: seq<Beam>, processed: seq<Beam>)
    requires Progress(k, T0, T1, initial, threshold, queue, time, clock, ts, popped, processed)
    requires |popped| <= fuel && (queue != multiset{} ==> |popped| == fuel)
    ensures Popped(T0, initial, threshold, fuel, queue == multiset{}, popped, processed)
  {
    if queue == multiset{} {
      assert popped != [];
    }
  }

  lemma ProgressDrained(k: Junction, T0: real, T1: real, initial: real, threshold: real,
                        time: real, clock: real, ts: Traces, popped: seq<Beam>, processed: seq<Beam>)
    requires Replayed(k, T0, initial, threshold, ts, popped, processed)
    requires Accounted(k, T0, T1, initial, multiset{}, popped, processed)
    requires Clocked(T0, T1, initial, threshold, multiset{}, time, clock, popped)
    ensures AllWellFormed(ts)
    ensures Drained(k, T0, T1, initial, threshold, Finish(ts, time + Max(T0, T1)), popped, processed)
  {
    assert popped != [];
    assert multiset(popped) + multiset{} == multiset(popped);
  }

  /** The flattening points come no earlier than the last pop. */
  lemma DrainedOrder(T0: real, T1: real, initial: real, threshold: real,
                     time: real, clock: real, ts: Traces, popped: seq<Beam>)
    requires T0 >= 0.0 && T1 >= 0.0
    requires Clocked(T0, T1, initial, threshold, multiset{}, time, clock, popped)
    requires Ordered(multiset{}, clock, ts, popped)
    ensures TracesInOrder(Finish(ts, time + Max(T0, T1)))
  {
    var horizon := time + Max(T0, T1);
    assert clock <= horizon;
    HoldKeepsOrder(ts.near, horizon);
    HoldKeepsOrder(ts.central, horizon);
    HoldKeepsOrder(ts.far, horizon);
  }

  /** A flattening point no earlier than the last point keeps the times in order. */
  lemma HoldKeepsOrder(tr: Trace, t: real)
    requires WellFormed(tr) && Nondecreasing(tr.times) && Last(tr.times) <= t
    ensures Nondecreasing(Hold(tr, t).times)
  {
  }

  /** The seed beam and the beam-queue loop (double_lattice.py lines 50-126):
      pops earliest beams until the queue empties or `fuel` pops are done,
      dropping those too weak to follow and handling the others. */
  method Drain(k: Junction, T0: real, T1: real, initial: real, threshold: real, fuel: nat)
    returns (queue: multiset<Beam>, time: real, ghost clock: real, near: Trace, central: Trace, far: Trace,
             popped: seq<Beam>, processed: seq<Beam>)
    ensures Progress(k, T0, T1, initial, threshold, queue, time, clock, Traces(near, central, far), popped, processed)
    ensures PoppedInTurn(k, T0, T1, initial, threshold, popped)
    ensures queue == Waiting(k, T0, T1, initial, threshold, popped)
    ensures |popped| <= fuel && (queue != multiset{} ==> |popped| == fuel)
  {
    var seed := SeedBeam(T0, initial);
    time := T0;
    near, central, far := Trace([-T0, 0.0, 0.0], [0.0, 0.0, initial]),
                          Trace([-T0, 0.0], [0.0, 0.0]), Trace([-T0, 0.0], [0.0, 0.0]);
    queue := multiset{seed};
    popped, processed := [], [];
    clock := T0;
    StartProgress(k, T0, T1, initial, threshold);
    var budget := fuel;
    while queue != multiset{} && budget > 0
      invariant |popped| + budget == fuel
      invariant Progress(k, T0, T1, initial, threshold, queue, time, clock,
                         Traces(near, central, far), popped, processed)
      invariant PoppedInTurn(k, T0, T1, initial, threshold, popped)
      invariant queue == Waiting(k, T0, T1, initial, threshold, popped)
      decreases budget
    {
      budget := budget - 1;
      ghost var queue0, popped0 := queue, popped;
      var x;
      x, queue, time, clock, near, central, far, popped, processed :=
        Step(k, T0, T1, initial, threshold, queue, time, clock, near, central, far, popped, processed);
      PopInTurn(k, T0, T1, initial, threshold, queue0, popped0, x, queue, popped);
    }
  }

  /** One pass of the beam-queue loop (double_lattice.py lines 64-126): pop
      an earliest beam, then drop it or handle it. */
  method Step(k: Junction, T0: real, T1: real, initial: real, threshold: real,
              queue: multiset<Beam>, time: real, ghost clock: real, near: Trace, central: Trace, far: Trace,
              popped: seq<Beam>, processed: seq<Beam>)
    returns (x: Beam, queue': multiset<Beam>, time': real, ghost clock': real,
             near': Trace, central': Trace, far': Trace, popped': seq<Beam>, processed': seq<Beam>)
    requires queue != multiset{}
    requires Progress(k, T0, T1, initial, threshold, queue, time, clock, Traces(near, central, far), popped, processed)
    ensures Progress(k, T0, T1, initial, threshold, queue', time', clock', Traces(near', central', far'),
                     popped', processed')
    ensures x in queue && Earliest(x, queue) && popped' == popped + [x]
    ensures queue' == queue - multiset{x} + if Peak(x) > threshold then Children(k, T0, T1, x) else multiset{}
    ensures processed' == processed + if Peak(x) > threshold then [x] else []
  {
    var rest;
    x, rest := TakeEarliest(queue);
    ghost var ts := Traces(near, central, far);
    if Peak(x) <= threshold {
      // too weak to follow further
      queue', time', clock', near', central', far' := rest, x.time, x.time, near, central, far;
      popped', processed' := popped + [x], processed;
      DropKeepsProgress(k, T0, T1, initial, threshold, queue, time, clock, ts, popped, processed, x,
                        queue', popped');
      assert queue' == queue - multiset{x} && processed' == processed;
      return;
    }
    time', near', central', far', queue' := Handle(k, T0, T1, x, near, central, far, rest);
    clock', popped', processed' := x.time, popped + [x], processed + [x];
    HandleKeepsProgress(k, T0, T1, initial, threshold, queue, time, clock, ts, popped, processed, x,
                        queue', time', Traces(near', central', far'), popped', processed');
    assert queue' == queue - multiset{x} + Children(k, T0, T1, x) && processed' == processed + [x];
  }

  /** The whole engine (double_lattice.py lines 50-135): the loop, then, when
      the queue emptied, the flattening points; `drained` is true when it
      emptied within `fuel` pops. `popped` and `processed` record the beams
      popped and those handled. */
  method Run(k: Junction, T0: real, T1: real, initial: real, threshold: real, fuel: nat)
    returns (drained: bool, near: Trace, central: Trace, far: Trace,
             popped: seq<Beam>, processed: seq<Beam>)
    ensures Simulated(k, T0, T1, initial, threshold, fuel, drained, Traces(near, central, far), popped, processed)
  {
    var queue, time;
    ghost var clock;
    queue, time, clock, near, central, far, popped, processed := Drain(k, T0, T1, initial, threshold, fuel);
    ghost var ts := Traces(near, central, far);
    drained := queue == multiset{};
    var last := time + Max(T0, T1);
    if drained {
      near, central, far := Hold(near, last), Hold(central, last), Hold(far, last);
    }
    ProgressSimulated(k, T0, T1, initial, threshold, fuel, queue, time, clock, ts, popped, processed,
                      drained, last, Traces(near, central, far));
  }

  /** Replaying beams only appends to the seed traces. */
  lemma {:induction false} ReplayExtends(k: Junction, seeds: Traces, log: seq<Beam>)
    requires AllWellFormed(seeds)
    ensures var r := Replay(k, seeds, log);
      && seeds.near.times <= r.near.times && seeds.near.levels <= r.near.levels
      && seeds.central.times <= r.central.times && seeds.central.levels <= r.central.levels
      && seeds.far.times <= r.far.times && seeds.far.levels <= r.far.levels
    decreases |log|
  {
    if log != [] {
      var front := log[..|log| - 1];
      ReplayExtends(k, seeds, front);
      ApplyKeepsOrder(k, Replay(k, seeds, front), log[|log| - 1]);
    }
  }

  /** Whatever the run does, every trace starts with its seed points: the
      near end holds 0 from -T0 to 0 and then rises to the launched value;
      the central and far traces hold 0 from -T0 to 0. */
  lemma SimulatedStartsWithSeeds(k: Junction, T0: real, T1: real, initial: real, threshold: real,
                                 drained: bool, ts: Traces, popped: seq<Beam>, processed: seq<Beam>)
    requires Traced(k, T0, T1, initial, threshold, drained, ts, popped, processed)
    ensures |ts.near.times| >= 3 && ts.near.times[..3] == [-T0, 0.0, 0.0]
    ensures |ts.near.levels| >= 3 && ts.near.levels[..3] == [0.0, 0.0, initial]
    ensures |ts.central.times| >= 2 && ts.central.times[..2] == [-T0, 0.0]
    ensures |ts.central.levels| >= 2 && ts.central.levels[..2] == [0.0, 0.0]
    ensures |ts.far.times| >= 2 && ts.far.times[..2] == [-T0, 0.0]
    ensures |ts.far.levels| >= 2 && ts.far.levels[..2] == [0.0, 0.0]
  {
    var seeds := Seeds(T0, initial);
    var r := Replay(k, seeds, processed);
    ReplayExtends(k, seeds, processed);
    assert seeds.near.times <= ts.near.times && seeds.near.levels <= ts.near.levels;
    assert seeds.central.times <= ts.central.times && seeds.central.levels <= ts.central.levels;
    assert seeds.far.times <= ts.far.times && seeds.far.levels <= ts.far.levels;
  }

  /** In a drained run the last beam popped enqueued nothing: its clock is
      its own time, so the flattening point lies one longest transit delay
      after the time of the last pop. */
  lemma DrainedFlattensAfterLastPop(k: Junction, T0: real, T1: real, initial: real, threshold: real,
                                    ts: Traces, popped: seq<Beam>, processed: seq<Beam>)
    requires Scheduled(k, T0, T1, initial, threshold, true, popped)
    requires Traced(k, T0, T1, initial, threshold, true, ts, popped, processed)
    ensures |popped| > 0
    ensures Resume(T0, T1, threshold, popped[|popped| - 1]) == popped[|popped| - 1].time
    ensures ts == Finish(Replay(k, Seeds(T0, initial), processed), popped[|popped| - 1].time + Max(T0, T1))
  {
    var last := popped[|popped| - 1];
    LastPopEnqueuedNothing(k, T0, T1, initial, threshold, popped);
    assert Resume(T0, T1, threshold, last) + Max(T0, T1) == last.time + Max(T0, T1);
  }

  /** When nothing is left waiting, the last pop cannot have been a handled
      beam: its children would still be waiting. */
  lemma LastPopEnqueuedNothing(k: Junction, T0: real, T1: real, initial: real, threshold: real,
                               popped: seq<Beam>)
    requires popped != [] && Waiting(k, T0, T1, initial, threshold, popped) == multiset{}
    ensures Resume(T0, T1, threshold, popped[|popped| - 1]) == popped[|popped| - 1].time
  {
    var x := popped[|popped| - 1];
    if Peak(x) > threshold && Handler(x) != None {
      assert false;
    }
  }

  /** A seed no stronger than the threshold is dropped and leaves nothing
      waiting: a run that may pop at all pops the seed alone, drains, and
      flattens the seed traces one longest transit delay after T0. */
  lemma QuietSeedDrains(k: Junction, T0: real, T1: real, initial: real, threshold: real, fuel: nat,
                        drained: bool, ts: Traces, popped: seq<Beam>, processed: seq<Beam>)
    requires Abs(initial) <= threshold && fuel >= 1
    requires Simulated(k, T0, T1, initial, threshold, fuel, drained, ts, popped, processed)
    ensures drained && popped == [SeedBeam(T0, initial)] && processed == []
    ensures ts == Finish(Seeds(T0, initial), T0 + Max(T0, T1))
  {
    QuietSeedPoppedAlone(k, T0, T1, initial, threshold, popped);
    DrainedFlattensAfterLastPop(k, T0, T1, initial, threshold, ts, popped, processed);
    assert processed == Kept(threshold, [SeedBeam(T0, initial)]) == [];
  }

  /** Popping a quiet seed leaves nothing waiting, so nothing is popped
      after it. */
  lemma QuietSeedPoppedAlone(k: Junction, T0: real, T1: real, initial: real, threshold: real,
                             popped: seq<Beam>)
    requires Abs(initial) <= threshold
    requires PoppedInTurn(k, T0, T1, initial, threshold, popped)
    requires |popped| > 0 && popped[0] == SeedBeam(T0, initial)
    ensures popped == [SeedBeam(T0, initial)]
    ensures Waiting(k, T0, T1, initial, threshold, popped) == multiset{}
  {
    var seed := SeedBeam(T0, initial);
    assert Peak(seed) <= threshold;
    assert [seed][..0] == [];
    assert popped[..1] == [seed];
    assert Waiting(k, T0, T1, initial, threshold, popped[..1]) == multiset{};
    NothingPoppedOnceEmpty(k, T0, T1, initial, threshold, popped, 1);
  }

  /** Once nothing is waiting, nothing more is popped. */
  lemma NothingPoppedOnceEmpty(k: Junction, T0: real, T1: real, initial: real, threshold: real,
                               popped: seq<Beam>, n: nat)
    requires PoppedInTurn(k, T0, T1, initial, threshold, popped)
    requires n <= |popped| && Waiting(k, T0, T1, initial, threshold, popped[..n]) == multiset{}
    ensures |popped| == n
  {
    if n < |popped| {
      PoppedAt(k, T0, T1, initial, threshold, popped, n);
      assert false;
    }
  }

  /** Once drained, each trace ends at its seed level plus the jumps of the
      beams handled at its interfaces, and it holds two points per such beam
      on top of its seed points and the flattening point; times and levels
      have equal length. */
  lemma DrainedTotals(k: Junction, T0: real, T1: real, initial: real, threshold: real,
                      fuel: nat, ts: Traces, popped: seq<Beam>, processed: seq<Beam>)
    requires Simulated(k, T0, T1, initial, threshold, fuel, true, ts, popped, processed)
    ensures AllWellFormed(ts)
    ensures Last(ts.near.levels) == initial + Rise(k, processed, A)
    ensures Last(ts.central.levels) == Rise(k, processed, B) + Rise(k, processed, C)
    ensures Last(ts.far.levels) == Rise(k, processed, D)
    ensures |ts.near.times| == |ts.near.levels| == 4 + 2 * Count(processed, A)
    ensures |ts.central.times| == |ts.central.levels| == 3 + 2 * (Count(processed, B) + Count(processed, C))
    ensures |ts.far.times| == |ts.far.levels| == 3 + 2 * Count(processed, D)
  {
    var seeds := Seeds(T0, initial);
    ReplayLevels(k, seeds, processed);
    ReplayLengths(k, seeds, processed);
  }
}

=== FILE: lattice.dfy ===
/** The single-segment lattice diagram (lattice.py): a step source behind
    `r_source` drives one line of impedance `line_impedance` and one-way
    delay `time_delay` into `r_termination`. Bounce n (n = 1, 2, ...) lands
    at time n * T: odd bounces at the far end, even ones at the near end. */
module Lattice {
  import opened Coefficients
  import opened Sequences

  /** `is_even` of the repository's helper module, taken as n % 2 == 0. */
  predicate IsEven(n: nat)
  {
    n % 2 == 0
  }

  /** The two travelling waves and the two end voltages after a bounce. */
  datatype Waves = Waves(forward: real, backward: real, near: real, far: real)

  /** The waves and end voltages after bounce `n`: the far end adds the
      forward wave and its reflection, the near end the backward wave and
      its reflection. */
  function After(rhoNear: real, rhoFar: real, vInitial: real, n: nat): Waves
    decreases n
  {
    if n == 0 then Waves(vInitial, 0.0, vInitial, 0.0)
    else
      var w := After(rhoNear, rhoFar, vInitial, n - 1);
      if !IsEven(n) then
        var backward := Scale(w.forward, rhoFar);
        Waves(w.forward, backward, w.near, w.far + w.forward + backward)
      else
        var forward := Scale(w.backward, rhoNear);
        Waves(forward, w.backward, w.near + w.backward + forward, w.far)
  }

  /** `time_points` after `n` bounces. */
  function TimePoints(T: real, n: nat): (s: seq<real>)
    ensures |s| == 3 + 2 * n
    ensures Last(s) == n as real * T
    decreases n
  {
    if n == 0 then [-T, 0.0, 0.0]
    else TimePoints(T, n - 1) + [n as real * T, n as real * T]
  }

  /** `v_near_end` after `n` bounces: each bounce appends the level before
      and the level after it. */
  function NearLevels(rhoNear: real, rhoFar: real, vInitial: real, n: nat): (s: seq<real>)
    ensures |s| == 3 + 2 * n
    ensures Last(s) == After(rhoNear, rhoFar, vInitial, n).near
    decreases n
  {
    if n == 0 then [0.0, 0.0, vInitial]
    else NearLevels(rhoNear, rhoFar, vInitial, n - 1)
         + [After(rhoNear, rhoFar, vInitial, n - 1).near, After(rhoNear, rhoFar, vInitial, n).near]
  }

  /** `v_far_end` after `n` bounces. */
  function FarLevels(rhoNear: real, rhoFar: real, vInitial: real, n: nat): (s: seq<real>)
    ensures |s| == 3 + 2 * n
    ensures Last(s) == After(rhoNear, rhoFar, vInitial, n).far
    decreases n
  {
    if n == 0 then [0.0, 0.0, 0.0]
    else FarLevels(rhoNear, rhoFar, vInitial, n - 1)
         + [After(rhoNear, rhoFar, vInitial, n - 1).far, After(rhoNear, rhoFar, vInitial, n).far]
  }

  /** The source's break condition for one end: within `tolerance * v_steady`
      of the steady voltage, with `tolerance * v_source` of slack when the
      steady voltage is 0. */
  predicate Settled(level: real, vSteady: real, vSource: real, tolerance: real)
  {
    Abs(level - vSteady) <= tolerance * vSteady + tolerance * vSource * (if vSteady == 0.0 then 1.0 else 0.0)
  }

  /** Whether the loop returns after bounce `n`: at the given iteration count
      when one is given (nonzero), otherwise once both ends are settled or at
      `max_iterations`. */
  predicate Stops(iterations: nat, maxIterations: int, n: nat, near: real, far: real,
                  vSteady: real, vSource: real, tolerance: real)
  {
    if iterations > 0 then n == iterations
    else (Settled(near, vSteady, vSource, tolerance) && Settled(far, vSteady, vSource, tolerance))
         || n == maxIterations
  }

  /** What the prelude (lines 9-26) needs to divide by nonzero values. */
  predicate Defined(lineImpedance: real, rSource: real, rTermination: Termination)
  {
    && lineImpedance + rSource != 0.0
    && (rTermination.Finite? ==> rTermination.r + lineImpedance != 0.0 && rSource + rTermination.r != 0.0)
  }

  /** The loop's lists and waves after `n` bounces. */
  predicate Bounced(T: real, rhoNear: real, rhoFar: real, vInitial: real, n: nat,
                    timePoints: seq<real>, vNearEnd: seq<real>, vFarEnd: seq<real>,
                    forward: real, backward: real)
  {
    && timePoints == TimePoints(T, n)
    && vNearEnd == NearLevels(rhoNear, rhoFar, vInitial, n)
    && vFarEnd == FarLevels(rhoNear, rhoFar, vInitial, n)
    && After(rhoNear, rhoFar, vInitial, n) == Waves(forward, backward, Last(vNearEnd), Last(vFarEnd))
  }

  /** A far-end bounce (lines 58-67): the near end holds, the forward wave
      reflects, and the far end rises by both waves. The state after the
      bounce is passed in primed. */
  lemma FarBounce(T: real, rhoNear: real, rhoFar: real, vInitial: real, n: nat,
                  timePoints: seq<real>, vNearEnd: seq<real>, vFarEnd: seq<real>,
                  forward: real, backward: real, next: nat,
                  timePoints': seq<real>, vNearEnd': seq<real>, vFarEnd': seq<real>, backward': real)
    requires Bounced(T, rhoNear, rhoFar, vInitial, n, timePoints, vNearEnd, vFarEnd, forward, backward)
    requires next == n + 1 && !IsEven(next)
    requires timePoints' == timePoints + [next as real * T, next as real * T]
    requires vNearEnd' == vNearEnd + [Last(vNearEnd), Last(vNearEnd)]
    requires backward' == Scale(forward, rhoFar)
    requires vFarEnd' == vFarEnd + [Last(vFarEnd), Last(vFarEnd) + forward + backward']
    ensures Bounced(T, rhoNear, rhoFar, vInitial, next, timePoints', vNearEnd', vFarEnd', forward, backward')
  {
    AfterFar(rhoNear, rhoFar, vInitial, n);
    ListsStep(T, rhoNear, rhoFar, vInitial, n, next);
    LastOfPair(vNearEnd, Last(vNearEnd), Last(vNearEnd));
    LastOfPair(vFarEnd, Last(vFarEnd), Last(vFarEnd) + forward + backward');
  }

  /** A near-end bounce (lines 70-79): the far end holds, the backward wave
      reflects, and the near end rises by both waves. */
  lemma NearBounce(T: real, rhoNear: real, rhoFar: real, vInitial: real, n: nat,
                   timePoints: seq<real>, vNearEnd: seq<real>, vFarEnd: seq<real>,
                   forward: real, backward: real, next: nat,
                   timePoints': seq<real>, vNearEnd': seq<real>, vFarEnd': seq<real>, forward': real)
    requires Bounced(T, rhoNear, rhoFar, vInitial, n, timePoints, vNearEnd, vFarEnd, forward, backward)
    requires next == n + 1 && IsEven(next)
    requires timePoints' == timePoints + [next as real * T, next as real * T]
    requires vFarEnd' == vFarEnd + [Last(vFarEnd), Last(vFarEnd)]
    requires forward' == Scale(backward, rhoNear)
    requires vNearEnd' == vNearEnd + [Last(vNearEnd), Last(vNearEnd) + backward + forward']
    ensures Bounced(T, rhoNear, rhoFar, vInitial, next, timePoints', vNearEnd', vFarEnd', forward', backward)
  {
    AfterNear(rhoNear, rhoFar, vInitial, n);
    ListsStep(T, rhoNear, rhoFar, vInitial, n, next);
    LastOfPair(vNearEnd, Last(vNearEnd), Last(vNearEnd) + backward + forward');
    LastOfPair(vFarEnd, Last(vFarEnd), Last(vFarEnd));
  }

  /** Each bounce appends two points to each of the three lists. */
  lemma ListsStep(T: real, rhoNear: real, rhoFar: real, vInitial: real, n: nat, next: nat)
    requires next == n + 1
    ensures TimePoints(T, next) == TimePoints(T, n) + [next as real * T, next as real * T]
    ensures NearLevels(rhoNear, rhoFar, vInitial, next) == NearLevels(rhoNear, rhoFar, vInitial, n)
      + [After(rhoNear, rhoFar, vInitial, n).near, After(rhoNear, rhoFar, vInitial, next).near]
    ensures FarLevels(rhoNear, rhoFar, vInitial, next) == FarLevels(rhoNear, rhoFar, vInitial, n)
      + [After(rhoNear, rhoFar, vInitial, n).far, After(rhoNear, rhoFar, vInitial, next).far]
  {
    TimePointsStep(T, n, next);
    NearLevelsStep(rhoNear, rhoFar, vInitial, n);
    FarLevelsStep(rhoNear, rhoFar, vInitial, n);
  }

  lemma TimePointsStep(T: real, n: nat, next: nat)
    requires next == n + 1
    ensures TimePoints(T, next) == TimePoints(T, n) + [next as real * T, next as real * T]
  {
  }

  lemma NearLevelsStep(rhoNear: real, rhoFar: real, vInitial: real, n: nat)
    ensures NearLevels(rhoNear, rhoFar, vInitial, n + 1) == NearLevels(rhoNear, rhoFar, vInitial, n)
      + [After(rhoNear, rhoFar, vInitial, n).near, After(rhoNear, rhoFar, vInitial, n + 1).near]
  {
  }

  lemma FarLevelsStep(rhoNear: real, rhoFar: real, vInitial: real, n: nat)
    ensures FarLevels(rhoNear, rhoFar, vInitial, n + 1) == FarLevels(rhoNear, rhoFar, vInitial, n)
      + [After(rhoNear, rhoFar, vInitial, n).far, After(rhoNear, rhoFar, vInitial, n + 1).far]
  {
  }

  /** An odd bounce reflects the forward wave at the far end. */
  lemma AfterFar(rhoNear: real, rhoFar: real, vInitial: real, n: nat)
    requires !IsEven(n + 1)
    ensures var w := After(rhoNear, rhoFar, vInitial, n);
      After(rhoNear, rhoFar, vInitial, n + 1)
        == Waves(w.forward, Scale(w.forward, rhoFar), w.near, w.far + w.forward + Scale(w.forward, rhoFar))
  {
  }

  /** An even bounce reflects the backward wave at the near end. */
  lemma AfterNear(rhoNear: real, rhoFar: real, vInitial: real, n: nat)
    requires IsEven(n + 1)
    ensures var w := After(rhoNear, rhoFar, vInitial, n);
      After(rhoNear, rhoFar, vInitial, n + 1)
        == Waves(Scale(w.backward, rhoNear), w.backward, w.near + w.backward + Scale(w.backward, rhoNear), w.far)
  {
  }

  /** `run_diagram` (lattice.py lines 8-102) with the console output left
      out. `iterations` 0 stands for the source's falsy `None`. The run stops
      at the first bounce where `Stops` holds, and returns the three lists
      with one more point one delay later, repeating the last levels. It also
      returns the number of bounces. */
  method RunDiagram(vSource: real, timeDelay: real, lineImpedance: real, rSource: real,
                    rTermination: Termination, iterations: nat, maxIterations: int, tolerance: real)
    returns (timePoints: seq<real>, vNearEnd: seq<real>, vFarEnd: seq<real>, bounces: nat)
    requires Defined(lineImpedance, rSource, rTermination)
    requires iterations > 0 || maxIterations >= 1
    ensures var rhoNear, rhoFar := Reflection(rSource, lineImpedance), FarReflection(rTermination, lineImpedance);
      var vInitial, vSteady := InitialVoltage(vSource, lineImpedance, rSource), SteadyVoltage(vSource, rSource, rTermination);
      Diagram(timeDelay, rhoNear, rhoFar, vInitial, vSteady, vSource, iterations, maxIterations, tolerance,
              timePoints, vNearEnd, vFarEnd, bounces)
  {
    var vInitial := InitialVoltage(vSource, lineImpedance, rSource);
    var vSteady := SteadyVoltage(vSource, rSource, rTermination);
    var rhoNear := Reflection(rSource, lineImpedance);
    var rhoFar := FarReflection(rTermination, lineImpedance);
    timePoints, vNearEnd, vFarEnd, bounces :=
      Bounce(timeDelay, rhoNear, rhoFar, vInitial, vSteady, vSource, iterations, maxIterations, tolerance);
  }

  /** The result of a run: it stops at the first bounce where `Stops` holds,
      which comes no later than the iteration count or `max_iterations`, and
      the lists are those after that bounce with one more point one delay
      later that repeats the last levels. */
  ghost predicate Diagram(T: real, rhoNear: real, rhoFar: real, vInitial: real, vSteady: real, vSource: real,
                          iterations: nat, maxIterations: int, tolerance: real,
                          timePoints: seq<real>, vNearEnd: seq<real>, vFarEnd: seq<real>, bounces: nat)
  {
    && 1 <= bounces <= (if iterations > 0 then iterations else maxIterations)
    && Stops(iterations, maxIterations, bounces, After(rhoNear, rhoFar, vInitial, bounces).near,
             After(rhoNear, rhoFar, vInitial, bounces).far, vSteady, vSource, tolerance)
    && (forall m: nat | 1 <= m < bounces ::
          !Stops(iterations, maxIterations, m, After(rhoNear, rhoFar, vInitial, m).near,
                 After(rhoNear, rhoFar, vInitial, m).far, vSteady, vSource, tolerance))
    && timePoints == TimePoints(T, bounces) + [bounces as real * T + T]
    && vNearEnd == NearLevels(rhoNear, rhoFar, vInitial, bounces) + [After(rhoNear, rhoFar, vInitial, bounces).near]
    && vFarEnd == FarLevels(rhoNear, rhoFar, vInitial, bounces) + [After(rhoNear, rhoFar, vInitial, bounces).far]
  }

  /** Returning after bounce `n` (lines 85-88 and 99-102) yields a `Diagram`
      when `n` is the first bounce where the run stops. The returned lists are
      passed in primed. */
  lemma Finished(T: real, rhoNear: real, rhoFar: real, vInitial: real, vSteady: real, vSource: real,
                 iterations: nat, maxIterations: int, tolerance: real, n: nat,
                 timePoints: seq<real>, vNearEnd: seq<real>, vFarEnd: seq<real>, forward: real, backward: real,
                 timePoints': seq<real>, vNearEnd': seq<real>, vFarEnd': seq<real>)
    requires 1 <= n <= (if iterations > 0 then iterations else maxIterations)
    requires Bounced(T, rhoNear, rhoFar, vInitial, n, timePoints, vNearEnd, vFarEnd, forward, backward)
    requires Stops(iterations, maxIterations, n, Last(vNearEnd), Last(vFarEnd), vSteady, vSource, tolerance)
    requires forall m: nat | 1 <= m < n ::
      !Stops(iterations, maxIterations, m, After(rhoNear, rhoFar, vInitial, m).near,
             After(rhoNear, rhoFar, vInitial, m).far, vSteady, vSource, tolerance)
    requires timePoints' == timePoints + [n as real * T + T]
    requires vNearEnd' == vNearEnd + [Last(vNearEnd)] && vFarEnd' == vFarEnd + [Last(vFarEnd)]
    ensures Diagram(T, rhoNear, rhoFar, vInitial, vSteady, vSource, iterations, maxIterations, tolerance,
                    timePoints', vNearEnd', vFarEnd', n)
  {
  }

  /** A bounce after which the run goes on extends the run of bounces that
      do not stop it. */
  lemma KeepsGoing(rhoNear: real, rhoFar: real, vInitial: real, vSteady: real, vSource: real,
                   iterations: nat, maxIterations: int, tolerance: real, n: nat, next: nat, w: Waves)
    requires next == n + 1 && After(rhoNear, rhoFar, vInitial, next) == w
    requires forall m: nat | 1 <= m <= n ::
      !Stops(iterations, maxIterations, m, After(rhoNear, rhoFar, vInitial, m).near,
             After(rhoNear, rhoFar, vInitial, m).far, vSteady, vSource, tolerance)
    requires !Stops(iterations, maxIterations, next, w.near, w.far, vSteady, vSource, tolerance)
    ensures forall m: nat | 1 <= m <= next ::
      !Stops(iterations, maxIterations, m, After(rhoNear, rhoFar, vInitial, m).near,
             After(rhoNear, rhoFar, vInitial, m).far, vSteady, vSource, tolerance)
  {
  }

  /** The bounce loop (lines 41-102), given the coefficients and the initial
      and steady voltages of the prelude. */
  method Bounce(timeDelay: real, rhoNear: real, rhoFar: real, vInitial: real, vSteady: real, vSource: real,
                iterations: nat, maxIterations: int, tolerance: real)
    returns (timePoints: seq<real>, vNearEnd: seq<real>, vFarEnd: seq<real>, bounces: nat)
    requires iterations > 0 || maxIterations >= 1
    ensures Diagram(timeDelay, rhoNear, rhoFar, vInitial, vSteady, vSource, iterations, maxIterations, tolerance,
                    timePoints, vNearEnd, vFarEnd, bounces)
  {
    var bounceNumber: nat := 0;
    vNearEnd := [0.0, 0.0, vInitial];
    vFarEnd := [0.0, 0.0, 0.0];
    timePoints := [-timeDelay, 0.0, 0.0];
    var forward := vInitial;
    var backward := 0.0;
    ghost var bound: int := if iterations > 0 then iterations else maxIterations;

    while true
      invariant bounceNumber < bound
      invariant Bounced(timeDelay, rhoNear, rhoFar, vInitial, bounceNumber,
                        timePoints, vNearEnd, vFarEnd, forward, backward)
      invariant forall m: nat | 1 <= m <= bounceNumber ::
        !Stops(iterations, maxIterations, m, After(rhoNear, rhoFar, vInitial, m).near,
               After(rhoNear, rhoFar, vInitial, m).far, vSteady, vSource, tolerance)
      decreases bound - bounceNumber
    {
      ghost var n, tp0, near0, far0, forward0, backward0 :=
        bounceNumber, timePoints, vNearEnd, vFarEnd, forward, backward;
      bounceNumber := bounceNumber + 1;
      var timeNow := bounceNumber as real * timeDelay;
      timePoints := timePoints + [timeNow, timeNow];

      if !IsEven(bounceNumber) {
        // far end: the near end holds
        var near := Last(vNearEnd);
        vNearEnd := vNearEnd + [near, near];
        backward := Scale(forward, rhoFar);
        var far := Last(vFarEnd);
        vFarEnd := vFarEnd + [far, far + forward + backward];
        FarBounce(timeDelay, rhoNear, rhoFar, vInitial, n, tp0, near0, far0, forward0, backward0,
                  bounceNumber, timePoints, vNearEnd, vFarEnd, backward);
      }
      if IsEven(bounceNumber) {
        // near end: the far end holds
        var far := Last(vFarEnd);
        vFarEnd := vFarEnd + [far, far];
        forward := Scale(backward, rhoNear);
        var near := Last(vNearEnd);
        vNearEnd := vNearEnd + [near, near + backward + forward];
        NearBounce(timeDelay, rhoNear, rhoFar, vInitial, n, tp0, near0, far0, forward0, backward0,
                   bounceNumber, timePoints, vNearEnd, vFarEnd, forward);
      }
      ghost var w := Waves(forward, backward, Last(vNearEnd), Last(vFarEnd));
      ghost var tp1, near1, far1 := timePoints, vNearEnd, vFarEnd;

      if iterations > 0 {
        if bounceNumber == iterations {
          vFarEnd := vFarEnd + [Last(vFarEnd)];
          vNearEnd := vNearEnd + [Last(vNearEnd)];
          timePoints := timePoints + [timeNow + timeDelay];
          bounces := bounceNumber;
          Finished(timeDelay, rhoNear, rhoFar, vInitial, vSteady, vSource, iterations, maxIterations, tolerance,
                   bounceNumber, tp1, near1, far1, forward, backward, timePoints, vNearEnd, vFarEnd);
          return;
        }
      }
      if iterations == 0 {
        var breakNear := Settled(Last(vNearEnd), vSteady, vSource, tolerance);
        var breakFar := Settled(Last(vFarEnd), vSteady, vSource, tolerance);
        if (breakNear && breakFar) || bounceNumber == maxIterations {
          vFarEnd := vFarEnd + [Last(vFarEnd)];
          vNearEnd := vNearEnd + [Last(vNearEnd)];
          timePoints := timePoints + [timeNow + timeDelay];
          bounces := bounceNumber;
          Finished(timeDelay, rhoNear, rhoFar, vInitial, vSteady, vSource, iterations, maxIterations, tolerance,
                   bounceNumber, tp1, near1, far1, forward, backward, timePoints, vNearEnd, vFarEnd);
          return;
        }
      }
      KeepsGoing(rhoNear, rhoFar, vInitial, vSteady, vSource, iterations, maxIterations, tolerance,
                 n, bounceNumber, w);
    }
  }

  /** What a run returns, read off `Diagram`: all three lists have length
      3 + 2 * bounces + 1, the last time is one delay after the last bounce,
      and the last near and far levels repeat the preceding ones. With an
      iteration count exactly that many bounces run; without one the run
      stops at `max_iterations` or earlier with both ends settled. */
  lemma DiagramShape(T: real, rhoNear: real, rhoFar: real, vInitial: real, vSteady: real, vSource: real,
                     iterations: nat, maxIterations: int, tolerance: real,
                     timePoints: seq<real>, vNearEnd: seq<real>, vFarEnd: seq<real>, bounces: nat)
    requires Diagram(T, rhoNear, rhoFar, vInitial, vSteady, vSource, iterations, maxIterations, tolerance,
                     timePoints, vNearEnd, vFarEnd, bounces)
    ensures |timePoints| == |vNearEnd| == |vFarEnd| == 3 + 2 * bounces + 1
    ensures Last(timePoints) == (bounces + 1) as real * T
    ensures vNearEnd[|vNearEnd| - 1] == vNearEnd[|vNearEnd| - 2]
    ensures vFarEnd[|vFarEnd| - 1] == vFarEnd[|vFarEnd| - 2]
    ensures iterations > 0 ==> bounces == iterations
    ensures iterations == 0 ==> bounces <= maxIterations
    ensures iterations == 0 && bounces < maxIterations ==>
      Settled(Last(vNearEnd), vSteady, vSource, tolerance) && Settled(Last(vFarEnd), vSteady, vSource, tolerance)
  {
    var near := NearLevels(rhoNear, rhoFar, vInitial, bounces);
    var far := FarLevels(rhoNear, rhoFar, vInitial, bounces);
    assert vNearEnd[|vNearEnd| - 2] == Last(near);
    assert vFarEnd[|vFarEnd| - 2] == Last(far);
  }

  /** Every bounce lands no earlier than the one before: for a nonnegative
      delay the time list is nondecreasing. */
  lemma {:induction false} TimePointsNondecreasing(T: real, n: nat)
    requires T >= 0.0
    ensures Nondecreasing(TimePoints(T, n))
    decreases n
  {
    if n > 0 {
      TimePointsNondecreasing(T, n - 1);
      TimePointsStepKeepsOrder(T, n - 1);
    }
  }

  lemma TimePointsStepKeepsOrder(T: real, n: nat)
    requires T >= 0.0 && Nondecreasing(TimePoints(T, n))
    ensures Nondecreasing(TimePoints(T, n + 1))
  {
    TimePointsStep(T, n, n + 1);
    NextBounceLater(T, n);
    AppendPairKeepsOrder(TimePoints(T, n), (n + 1) as real * T);
  }

  /** With a nonnegative delay, bounce n + 1 lands no earlier than the last
      time point after bounce n. */
  lemma NextBounceLater(T: real, n: nat)
    requires T >= 0.0
    ensures Last(TimePoints(T, n)) <= (n + 1) as real * T
  {
    assert (n + 1) as real * T == n as real * T + T;
  }

  /** The returned time list is nondecreasing, including its closing point. */
  lemma DiagramTimesNondecreasing(T: real, rhoNear: real, rhoFar: real, vInitial: real, vSteady: real,
                                  vSource: real, iterations: nat, maxIterations: int, tolerance: real,
                                  timePoints: seq<real>, vNearEnd: seq<real>, vFarEnd: seq<real>, bounces: nat)
    requires Diagram(T, rhoNear, rhoFar, vInitial, vSteady, vSource, iterations, maxIterations, tolerance,
                     timePoints, vNearEnd, vFarEnd, bounces)
    requires T >= 0.0
    ensures Nondecreasing(timePoints)
  {
    var p := TimePoints(T, bounces);
    TimePointsNondecreasing(T, bounces);
    forall i, j | 0 <= i <= j < |timePoints|
      ensures timePoints[i] <= timePoints[j]
    {
      if j == |p| && i < |p| {
        assert p[i] <= Last(p);
      }
    }
  }

  function Power(r: real, j: nat): real
    decreases j
  {
    if j == 0 then 1.0 else r * Power(r, j - 1)
  }

  /** The balance between the initial and the steady voltage that the
      prelude's formulas satisfy: vSteady (1 - rhoNear rhoFar) = vInitial (1 + rhoFar). */
  predicate Balanced(rhoNear: real, rhoFar: real, vInitial: real, vSteady: real)
  {
    vSteady * (1.0 - rhoNear * rhoFar) == vInitial * (1.0 + rhoFar)
  }

  /** The coefficients and voltages of lines 9-26 are balanced, for every
      termination: open, short and finite. */
  lemma SteadyBalance(vSource: real, lineImpedance: real, rSource: real, rTermination: Termination)
    requires Defined(lineImpedance, rSource, rTermination)
    ensures Balanced(Reflection(rSource, lineImpedance), FarReflection(rTermination, lineImpedance),
                     InitialVoltage(vSource, lineImpedance, rSource), SteadyVoltage(vSource, rSource, rTermination))
  {
    var z, rs := lineImpedance, rSource;
    var rn, rf := Reflection(rs, z), FarReflection(rTermination, z);
    var vi, vs := InitialVoltage(vSource, z, rs), SteadyVoltage(vSource, rs, rTermination);
    match rTermination
    case Open =>
      BalanceOpen(vSource, z, rs, rn, vi);
    case Finite(r) =>
      BalanceFinite(vSource, z, rs, r, rn, rf, vi, vs);
  }

  /** The open line: rhoFar = 1 and vSteady = vSource. */
  lemma BalanceOpen(v: real, z: real, rs: real, rn: real, vi: real)
    requires rs + z != 0.0
    requires rn * (rs + z) == rs - z && vi * (z + rs) == z * v
    ensures v * (1.0 - rn * 1.0) == vi * (1.0 + 1.0)
  {
    assert (v * (1.0 - rn)) * (rs + z) == (vi * 2.0) * (rs + z);
    CancelFactor(v * (1.0 - rn), vi * 2.0, rs + z);
  }

  /** A finite termination r, from the defining equations of the prelude's
      four quotients. */
  lemma BalanceFinite(v: real, z: real, rs: real, r: real, rn: real, rf: real, vi: real, vs: real)
    requires rs + z != 0.0 && r + z != 0.0 && rs + r != 0.0
    requires rn * (rs + z) == rs - z && rf * (r + z) == r - z
    requires vi * (z + rs) == z * v && vs * (rs + r) == r * v
    ensures vs * (1.0 - rn * rf) == vi * (1.0 + rf)
  {
    var a, b := rs + z, r + z;
    // (1 - rn rf) a b = 2 z (rs + r) and (1 + rf) b = 2 r, so both sides times a b are 2 z r v
    RoundTripFactor(rs, r, z, rn, rf);
    NearSide(vs, 1.0 - rn * rf, a * b, rs + r, z, r, v);
    FarSide(vi, 1.0 + rf, a, b, z, r, v);
    NonzeroProduct(a, b);
    CancelCommon(vs * (1.0 - rn * rf), vi * (1.0 + rf), a * b, 2.0 * z * (r * v));
  }

  lemma RoundTripFactor(rs: real, r: real, z: real, rn: real, rf: real)
    requires rn * (rs + z) == rs - z && rf * (r + z) == r - z
    ensures (1.0 - rn * rf) * ((rs + z) * (r + z)) == 2.0 * z * (rs + r)
    ensures (1.0 + rf) * (r + z) == 2.0 * r
  {
    Regroup(rn, rs + z, rf, r + z);
  }

  lemma NearSide(vs: real, u: real, ab: real, s: real, z: real, r: real, v: real)
    requires u * ab == 2.0 * z * s && vs * s == r * v
    ensures (vs * u) * ab == 2.0 * z * (r * v)
  {
    calc {
      (vs * u) * ab;
      vs * (u * ab);
      vs * (2.0 * z * s);
      2.0 * z * (vs * s);
    }
  }

  lemma FarSide(vi: real, t: real, a: real, b: real, z: real, r: real, v: real)
    requires t * b == 2.0 * r && vi * a == z * v
    ensures (vi * t) * (a * b) == 2.0 * z * (r * v)
  {
    calc {
      (vi * t) * (a * b);
      (vi * a) * (t * b);
      (z * v) * (2.0 * r);
    }
  }

  lemma Regroup(x: real, a: real, y: real, b: real)
    ensures (x * y) * (a * b) == (x * a) * (y * b)
  {
  }

  lemma NonzeroProduct(x: real, y: real)
    requires x != 0.0 && y != 0.0
    ensures x * y != 0.0
  {
  }

  lemma CancelCommon(x: real, y: real, d: real, k: real)
    requires d != 0.0 && x * d == k && y * d == k
    ensures x == y
  {
    CancelFactor(x, y, d);
  }

  lemma CancelFactor(x: real, y: real, d: real)
    requires d != 0.0 && x * d == y * d
    ensures x == y
  {
    assert (x - y) * d == 0.0;
  }

  /** The closed form after an even bounce n = 2j, with p = r^j: the forward
      wave is vInitial p, the near end vSteady + (vInitial - vSteady) p and the
      far end vSteady - vSteady p. */
  predicate EvenForm(rhoNear: real, rhoFar: real, vInitial: real, vSteady: real, n: nat, p: real)
  {
    var w := After(rhoNear, rhoFar, vInitial, n);
    && w.forward == vInitial * p
    && w.near == vSteady + (vInitial - vSteady) * p
    && w.far == vSteady - vSteady * p
  }

  /** The closed form after an odd bounce n = 2j + 1, with p = r^j and
      p1 = r^(j+1): the backward wave is rhoFar vInitial p, the near end is
      unchanged and the far end is vSteady - vSteady p1. */
  predicate OddForm(rhoNear: real, rhoFar: real, vInitial: real, vSteady: real, n: nat, p: real, p1: real)
  {
    var w := After(rhoNear, rhoFar, vInitial, n);
    && w.backward == rhoFar * (vInitial * p)
    && w.near == vSteady + (vInitial - vSteady) * p
    && w.far == vSteady - vSteady * p1
  }

  /** Bewley's closed form: with r = rhoNear rhoFar, the gap between either
      end and the steady voltage shrinks by the factor r on every round trip.
      Bounce 2j leaves the forward wave vInitial r^j, the near end at
      vSteady + (vInitial - vSteady) r^j and the far end at vSteady - vSteady r^j;
      bounce 2j+1 sends back rhoFar vInitial r^j and brings the far end to
      vSteady - vSteady r^(j+1). */
  lemma {:induction false} ClosedForm(rhoNear: real, rhoFar: real, vInitial: real, vSteady: real, j: nat)
    requires Balanced(rhoNear, rhoFar, vInitial, vSteady)
    ensures EvenForm(rhoNear, rhoFar, vInitial, vSteady, 2 * j, Power(rhoNear * rhoFar, j))
    ensures OddForm(rhoNear, rhoFar, vInitial, vSteady, 2 * j + 1,
                    Power(rhoNear * rhoFar, j), Power(rhoNear * rhoFar, j + 1))
    decreases j
  {
    if j == 0 {
      ClosedFormStart(rhoNear, rhoFar, vInitial, vSteady);
    } else {
      ClosedForm(rhoNear, rhoFar, vInitial, vSteady, j - 1);
      ClosedFormStep(rhoNear, rhoFar, vInitial, vSteady, j);
    }
  }

  /** Bounces 0 and 1. */
  lemma ClosedFormStart(rhoNear: real, rhoFar: real, vInitial: real, vSteady: real)
    requires Balanced(rhoNear, rhoFar, vInitial, vSteady)
    ensures EvenForm(rhoNear, rhoFar, vInitial, vSteady, 2 * 0, Power(rhoNear * rhoFar, 0))
    ensures OddForm(rhoNear, rhoFar, vInitial, vSteady, 2 * 0 + 1,
                    Power(rhoNear * rhoFar, 0), Power(rhoNear * rhoFar, 0 + 1))
  {
    var r := rhoNear * rhoFar;
    PowerStep(r, 0);
    FarEndStep(rhoNear, rhoFar, vInitial, vSteady, 2 * 0, 2 * 0 + 1, Power(r, 0), Power(r, 0 + 1));
  }

  /** Bounces 2j and 2j + 1 from bounce 2j - 1. */
  lemma ClosedFormStep(rhoNear: real, rhoFar: real, vInitial: real, vSteady: real, j: nat)
    requires Balanced(rhoNear, rhoFar, vInitial, vSteady) && j > 0
    requires OddForm(rhoNear, rhoFar, vInitial, vSteady, 2 * (j - 1) + 1,
                     Power(rhoNear * rhoFar, j - 1), Power(rhoNear * rhoFar, j))
    ensures EvenForm(rhoNear, rhoFar, vInitial, vSteady, 2 * j, Power(rhoNear * rhoFar, j))
    ensures OddForm(rhoNear, rhoFar, vInitial, vSteady, 2 * j + 1,
                    Power(rhoNear * rhoFar, j), Power(rhoNear * rhoFar, j + 1))
  {
    var r := rhoNear * rhoFar;
    PowerStep(r, j - 1);
    NearEndStep(rhoNear, rhoFar, vInitial, vSteady, 2 * (j - 1) + 1, 2 * j, Power(r, j - 1), Power(r, j));
    PowerStep(r, j);
    FarEndStep(rhoNear, rhoFar, vInitial, vSteady, 2 * j, 2 * j + 1, Power(r, j), Power(r, j + 1));
  }

  /** An odd bounce `next` from the closed form at the bounce before. */
  lemma FarEndStep(rhoNear: real, rhoFar: real, vInitial: real, vSteady: real, n: nat, next: nat, p: real, p1: real)
    requires Balanced(rhoNear, rhoFar, vInitial, vSteady)
    requires next == n + 1 && !IsEven(next)
    requires p1 == (rhoNear * rhoFar) * p
    requires EvenForm(rhoNear, rhoFar, vInitial, vSteady, n, p)
    ensures OddForm(rhoNear, rhoFar, vInitial, vSteady, next, p, p1)
  {
    var w, w1 := After(rhoNear, rhoFar, vInitial, n), After(rhoNear, rhoFar, vInitial, next);
    AfterFar(rhoNear, rhoFar, vInitial, n);
    FarRise(rhoNear, rhoFar, vInitial, vSteady, p, p1, w, w1);
  }

  /** An even bounce `next` from the closed form at the bounce before. */
  lemma NearEndStep(rhoNear: real, rhoFar: real, vInitial: real, vSteady: real, n: nat, next: nat, q: real, q1: real)
    requires Balanced(rhoNear, rhoFar, vInitial, vSteady)
    requires next == n + 1 && IsEven(next)
    requires q1 == (rhoNear * rhoFar) * q
    requires OddForm(rhoNear, rhoFar, vInitial, vSteady, n, q, q1)
    ensures EvenForm(rhoNear, rhoFar, vInitial, vSteady, next, q1)
  {
    var w, w1 := After(rhoNear, rhoFar, vInitial, n), After(rhoNear, rhoFar, vInitial, next);
    AfterNear(rhoNear, rhoFar, vInitial, n);
    NearRise(rhoNear, rhoFar, vInitial, vSteady, q, q1, w, w1);
  }

  lemma PowerStep(r: real, j: nat)
    ensures Power(r, j + 1) == r * Power(r, j)
  {
  }

  /** The far end's rise at an odd bounce closes a factor r of the gap. */
  lemma FarRise(rhoNear: real, rhoFar: real, vInitial: real, vSteady: real, p: real, p1: real, w: Waves, next: Waves)
    requires Balanced(rhoNear, rhoFar, vInitial, vSteady)
    requires p1 == (rhoNear * rhoFar) * p
    requires w.forward == vInitial * p && w.near == vSteady + (vInitial - vSteady) * p && w.far == vSteady - vSteady * p
    requires next == Waves(w.forward, Scale(w.forward, rhoFar), w.near, w.far + w.forward + Scale(w.forward, rhoFar))
    ensures next.backward == rhoFar * (vInitial * p)
    ensures next.near == vSteady + (vInitial - vSteady) * p
    ensures next.far == vSteady - vSteady * p1
  {
    assert w.forward + next.backward == (vInitial * (1.0 + rhoFar)) * p;
    assert vSteady * p - vSteady * p1 == (vSteady * (1.0 - rhoNear * rhoFar)) * p;
  }

  /** The near end's rise at an even bounce closes a factor r of the gap,
      and the new forward wave is the old one scaled by r. */
  lemma NearRise(rhoNear: real, rhoFar: real, vInitial: real, vSteady: real, q: real, q1: real, w: Waves, next: Waves)
    requires Balanced(rhoNear, rhoFar, vInitial, vSteady)
    requires q1 == (rhoNear * rhoFar) * q
    requires w.backward == rhoFar * (vInitial * q) && w.near == vSteady + (vInitial - vSteady) * q
         && w.far == vSteady - vSteady * q1
    requires next == Waves(Scale(w.backward, rhoNear), w.backward, w.near + w.backward + Scale(w.backward, rhoNear), w.far)
    ensures next.forward == vInitial * q1
    ensures next.near == vSteady + (vInitial - vSteady) * q1
    ensures next.far == vSteady - vSteady * q1
  {
    assert w.backward + next.forward == (vInitial * (1.0 + rhoFar)) * q - vInitial * q + vInitial * q1;
    assert (vInitial - vSteady) * q1 - (vInitial - vSteady) * q
        == vInitial * q1 - vInitial * q + (vSteady * (1.0 - rhoNear * rhoFar)) * q;
  }

  /** The run's first bounce, for a far end that reflects nothing: both
      ends carry the initial voltage. */
  lemma MatchedFirstBounce(rhoNear: real, vInitial: real)
    ensures After(rhoNear, 0.0, vInitial, 1) == Waves(vInitial, 0.0, vInitial, vInitial)
  {
    assert !IsEven(1);
  }

  /** Into its own impedance the step settles at once: the far end reflects
      nothing, the steady voltage is the initial one, and it is nonnegative
      for a nonnegative source. */
  lemma MatchedVoltages(v: real, z: real, rs: real)
    requires z > 0.0 && rs >= 0.0 && v >= 0.0
    ensures FarReflection(Finite(z), z) == 0.0
    ensures InitialVoltage(v, z, rs) == SteadyVoltage(v, rs, Finite(z)) >= 0.0
  {
    var vi, vs := InitialVoltage(v, z, rs), SteadyVoltage(v, rs, Finite(z));
    assert vs * (rs + z) == z * v;
    CancelFactor(vi, vs, z + rs);
    if vi < 0.0 {
      PositiveProduct(-vi, z + rs);
    }
  }

  /** The settling bound is `tolerance * v_steady` with no absolute value:
      for a negative steady voltage and a positive tolerance it is negative,
      so no level, not even the steady voltage itself, is ever settled. */
  lemma NegativeSteadyNeverSettles(level: real, vSteady: real, vSource: real, tolerance: real)
    requires vSteady < 0.0 && tolerance > 0.0
    ensures !Settled(level, vSteady, vSource, tolerance)
  {
  }

  /** A level at the steady voltage is settled for any nonnegative tolerance. */
  lemma SettledAtSteady(vSteady: real, vSource: real, tolerance: real)
    requires vSteady >= 0.0 && vSource >= 0.0 && tolerance >= 0.0
    ensures Settled(vSteady, vSteady, vSource, tolerance)
  {
    if tolerance > 0.0 && vSteady > 0.0 {
      PositiveProduct(tolerance, vSteady);
    }
    if tolerance > 0.0 && vSource > 0.0 {
      PositiveProduct(tolerance, vSource);
    }
  }

  /** A run with `Stops` at bounce 1 stops there. */
  lemma StopsAtFirstBounce(T: real, rhoNear: real, rhoFar: real, vInitial: real, vSteady: real, vSource: real,
                           iterations: nat, maxIterations: int, tolerance: real,
                           timePoints: seq<real>, vNearEnd: seq<real>, vFarEnd: seq<real>, bounces: nat)
    requires Diagram(T, rhoNear, rhoFar, vInitial, vSteady, vSource, iterations, maxIterations, tolerance,
                     timePoints, vNearEnd, vFarEnd, bounces)
    requires Stops(iterations, maxIterations, 1, After(rhoNear, rhoFar, vInitial, 1).near,
                   After(rhoNear, rhoFar, vInitial, 1).far, vSteady, vSource, tolerance)
    ensures bounces == 1
    ensures var w := After(rhoNear, rhoFar, vInitial, 1);
      && timePoints == [-T, 0.0, 0.0, T, T, 2.0 * T]
      && vNearEnd == [0.0, 0.0, vInitial, vInitial, w.near, w.near]
      && vFarEnd == [0.0, 0.0, 0.0, 0.0, w.far, w.far]
  {
    assert TimePoints(T, 1) == TimePoints(T, 0) + [1 as real * T, 1 as real * T];
    assert TimePoints(T, 1) == [-T, 0.0, 0.0, T, T];
  }

  /** With no far-end reflection and the initial voltage already steady, a
      run without an iteration count stops at the first bounce. */
  lemma MatchedStops(T: real, rhoNear: real, vInitial: real, vSource: real, maxIterations: int, tolerance: real,
                     timePoints: seq<real>, vNearEnd: seq<real>, vFarEnd: seq<real>, bounces: nat)
    requires vInitial >= 0.0 && vSource >= 0.0 && tolerance >= 0.0
    requires Diagram(T, rhoNear, 0.0, vInitial, vInitial, vSource, 0, maxIterations, tolerance,
                     timePoints, vNearEnd, vFarEnd, bounces)
    ensures bounces == 1
    ensures timePoints == [-T, 0.0, 0.0, T, T, 2.0 * T]
    ensures vNearEnd == [0.0, 0.0, vInitial, vInitial, vInitial, vInitial]
    ensures vFarEnd == [0.0, 0.0, 0.0, 0.0, vInitial, vInitial]
  {
    MatchedFirstBounce(rhoNear, vInitial);
    SettledAtSteady(vInitial, vSource, tolerance);
    StopsAtFirstBounce(T, rhoNear, 0.0, vInitial, vInitial, vSource, 0, maxIterations, tolerance,
                       timePoints, vNearEnd, vFarEnd, bounces);
  }

  /** A line terminated in its own impedance reflects nothing at the far
      end: without an iteration count the run stops at the first bounce,
      with both ends already at the steady voltage. */
  lemma MatchedLoadStopsAtFirstBounce(vSource: real, T: real, lineImpedance: real, rSource: real,
                                      maxIterations: int, tolerance: real,
                                      timePoints: seq<real>, vNearEnd: seq<real>, vFarEnd: seq<real>, bounces: nat)
    requires lineImpedance > 0.0 && rSource >= 0.0 && vSource >= 0.0 && tolerance >= 0.0
    requires Diagram(T, Reflection(rSource, lineImpedance), FarReflection(Finite(lineImpedance), lineImpedance),
                     InitialVoltage(vSource, lineImpedance, rSource),
                     SteadyVoltage(vSource, rSource, Finite(lineImpedance)), vSource, 0, maxIterations, tolerance,
                     timePoints, vNearEnd, vFarEnd, bounces)
    ensures bounces == 1
    ensures var vi := InitialVoltage(vSource, lineImpedance, rSource);
      && vi == SteadyVoltage(vSource, rSource, Finite(lineImpedance))
      && timePoints == [-T, 0.0, 0.0, T, T, 2.0 * T]
      && vNearEnd == [0.0, 0.0, vi, vi, vi, vi]
      && vFarEnd == [0.0, 0.0, 0.0, 0.0, vi, vi]
  {
    MatchedVoltages(vSource, lineImpedance, rSource);
    MatchedStops(T, Reflection(rSource, lineImpedance), InitialVoltage(vSource, lineImpedance, rSource), vSource,
                 maxIterations, tolerance, timePoints, vNearEnd, vFarEnd, bounces);
  }
}

=== FILE: sequences.dfy ===
/** Facts about the appended lists every lattice diagram builds. */
module Sequences {

  /** The source's `list[-1]`. */
  function Last(s: seq<real>): real
    requires |s| > 0
  {
    s[|s| - 1]
  }

  predicate Nondecreasing(s: seq<real>)
  {
    forall i, j | 0 <= i <= j < |s| :: s[i] <= s[j]
  }

  /** Appending a hold-then-jump pair leaves the jump last. */
  lemma LastOfPair(s: seq<real>, a: real, b: real)
    ensures Last(s + [a, b]) == b
  {
  }

  /** Appending a repeated value no smaller than the last element keeps a
      sequence nondecreasing. */
  lemma AppendPairKeepsOrder(p: seq<real>, t: real)
    requires |p| > 0 && Nondecreasing(p) && Last(p) <= t
    ensures Nondecreasing(p + [t, t])
  {
    var s := p + [t, t];
    forall i, j | 0 <= i <= j < |s|
      ensures s[i] <= s[j]
    {
      if j < |p| {
        assert s[i] == p[i] && s[j] == p[j];
      } else if i < |p| {
        assert s[i] == p[i] <= Last(p);
      }
    }
  }
}
